=== FILE: README.md ===
# Offline cache controller and image-loading logic of the CVV IEDC portal, in Dafny

This project models the small amount of sequential logic in the club website's
front end and proves properties about it:

- **The offline cache controller** (`public/service-worker.js`). Install precaches
  four assets and creates the image cache. Activate sweeps every cache except the
  two current ones. Fetch routing classifies each request. Cross-origin requests
  use stale-while-revalidate. The cache storage is an ordered list of cache names
  plus a map from each name to a map from request URL to response. Network results
  are parameters: `None` means the fetch was rejected.
- **Image URL utilities** (`src/utils/imageOptimization.ts`): breakpoint width
  selection, Unsplash size parameters, `srcset` construction, and the
  viewport-intersection test with an offset.
- **The OptimizedImage component** (`src/components/shared/OptimizedImage.tsx`):
  the WebP source rewrite, the `loading`/`fetchPriority` hints, and the
  `loaded`/`error` state. That state is reset whenever the effect's
  dependencies change.
- **The Team page** (`src/pages/Team.tsx`): external photo URLs, card loading
  hints, flattening a team's four member lists, the expand/collapse map and
  year selection.
- **The Execom page** (`src/pages/Execom.tsx`): the per-member visibility flags.
  The first twelve start on, and a visibility check only turns flags on. The
  effect that runs the check is modelled as written and with the fix (see "## Findings").

Modules: `Wrappers` (Option/Result), `Strings` (the JavaScript string built-ins
used, over `seq<char>`), `ServiceWorker`, `ImageOptimization`, `OptimizedImage`,
`Team`, `Execom`.

Some browser state becomes plain parameters. WebP support is a boolean. The
window and document sizes and the element rectangles are integers. The scroll
and resize events that trigger a visibility check are a sequence of `Check`
values.

Two behaviours of the code are easy to misread:

- Cross-origin lookups use `caches.match`. It searches every cache the origin
  holds, in creation order, not only the two current partitions.
- The run-time cache write requires status exactly 200. `cache.addAll` at
  install accepts any `ok` response (status 200-299) except 206 Partial
  Content, which the Cache API rejects.

The Team page rows marked "corrected reading" describe sections with a
missing member list read as empty. As written, such a section throws instead
(see "## Findings").

## Model

| member | source | states |
|---|---|---|
| ServiceWorker.IsImageRequest | public/service-worker.js:56-60 | An image request is one whose path ends (case-sensitively) with one of .png .jpg .jpeg .webp .svg .gif, or whose destination is `image`. |
| ServiceWorker.SomeEndsWith | public/service-worker.js:58 | `some(ext => path.endsWith(ext))` holds iff some listed suffix ends the path. |
| ServiceWorker.ImageExtensionsListed | public/service-worker.js:16-23 | The extension list is exactly the six suffixes, each tested on its own. |
| ServiceWorker.IsNetworkFirstRequest | public/service-worker.js:63-68 | A request is network-first iff `/api/` occurs somewhere in its path or the path ends with `.json`. |
| ServiceWorker.PartitionFor | public/service-worker.js:85 | The write partition is the image cache for image requests and the general cache otherwise. ServiceWorker.WritesConfinedToPartition shows that a 200 response touches only this partition. |
| ServiceWorker.ClassificationExamples | public/service-worker.js:56-68 | `/logo.png` is an image; `/data/events.json` and `/api/events` are network-first; `/execom/sona.JPG` is an image only through its destination. |
| ServiceWorker.LogoIsNotApi | public/service-worker.js:63-68 | `/logo.png` is not a network-first request. |
| ServiceWorker.AboutIsOther | public/service-worker.js:56-68 | `/about` is neither an image nor a network-first request. |
| ServiceWorker.MatchIn | public/service-worker.js:81 | `caches.match` answers from the first cache, in storage order, that holds the URL, and answers nothing iff no cache holds it. |
| ServiceWorker.Open | public/service-worker.js:30-33 | Opening a cache keeps every existing cache. It adds an empty cache, listed last, only when the name is new. |
| ServiceWorker.Put | public/service-worker.js:87-89 | A put sets one entry of one cache and leaves every other cache as it was. The cache list keeps its order, and a newly opened cache is listed last. |
| ServiceWorker.PutKeepsOtherMatches | public/service-worker.js:87-89 | After a put of one URL, `caches.match` gives the same answer as before for every other URL. |
| ServiceWorker.AddPrecache | public/service-worker.js:30-31 | `addAll` stores every precache asset's own fetched response under its URL. Other entries of the general cache keep their values. |
| ServiceWorker.Prepare | public/service-worker.js:29-32 | Opening the general cache and then the image cache creates each only when absent and keeps every existing cache and its contents. New caches are listed after the existing ones, general first. |
| ServiceWorker.Install | public/service-worker.js:26-37 | Install succeeds iff every precache fetch gives a response `addAll` accepts: status 200-299 and not 206. On success the general cache gains exactly the four assets; on failure it is unchanged. The image cache is created, and every other cache is untouched. The existing caches keep their order; the general cache and then the image cache are listed after them, each only if it was new. |
| ServiceWorker.PrecachedAssetMissesImageCache | public/service-worker.js:26-37 | Install stores a precached asset in the general cache only. The image branch (lines 108-112) reads only the image cache, so after install it still does not find an asset such as `/placeholder.svg` there. |
| ServiceWorker.PrecacheCompleteness | public/service-worker.js:26-37 | When every precache fetch is ok, install succeeds and each of `/`, `/index.html`, `/favicon.ico` and `/placeholder.svg` is in the general cache. |
| ServiceWorker.PartialContentFailsInstall | public/service-worker.js:26-37 | A 206 Partial Content answer for any one precache asset fails the install, and the general cache stays as it was. |
| ServiceWorker.KeepCurrent | public/service-worker.js:44-49 | The surviving names are exactly the listed names that equal one of the two current names. Any two survivors keep their original relative order, because deleting a cache in place does not reorder the rest. A list without duplicates stays without duplicates. |
| ServiceWorker.Activate | public/service-worker.js:40-53 | After activate, the caches are exactly the pre-existing ones named `cvv-iedc-v1` or `cvv-iedc-images-v1`, with their contents untouched, listed in the order KeepCurrent gives, which is their original creation order. |
| ServiceWorker.ActivatePreservesMatch | public/service-worker.js:40-53 | For a URL that none of the deleted caches holds, `caches.match` returns the same response after activation as before it. The first cache holding the URL is still first. |
| ServiceWorker.SweepExample | public/service-worker.js:42-50 | With `old-v0` and the two current caches, activation leaves the two current caches in order, with their contents, and removes `old-v0`. |
| ServiceWorker.ActivateIdempotent | public/service-worker.js:46 | A second sweep deletes nothing more. |
| ServiceWorker.StaleWhileRevalidate | public/service-worker.js:80-101 | A cached copy, if any, is the reply; otherwise the network result. A failed fetch yields the cached offline page for navigations and nothing otherwise. Only a status-200 result is written, into the partition its classification picks. |
| ServiceWorker.WritesConfinedToPartition | public/service-worker.js:82-90 | A failed or non-200 fetch changes no cache. A 200 response changes only the request's own entry in its partition. |
| ServiceWorker.RevalidatedCopyIsServedNext | public/service-worker.js:81-101 | Once a 200 response is stored, the next request for the URL gets it. This holds whatever the network then does, provided no other cache holds a copy. |
| ServiceWorker.ImageCacheLookup | public/service-worker.js:108-112 | The same-origin image branch answers only from the image cache. |
| ServiceWorker.HandleFetch | public/service-worker.js:71-112 | Non-GET requests are not handled. GET requests from another origin use stale-while-revalidate. Same-origin image requests look in the image cache. |
| ServiceWorker.NonGetPassesThrough | public/service-worker.js:75 | Every non-GET request is left unhandled: no `respondWith`, hence no reply, lookup or write. |
| Strings.ContainsIff | src/utils/imageOptimization.ts:55 | `includes` holds exactly when some window of the string equals the searched text. |
| Strings.IndexOf | src/components/shared/OptimizedImage.tsx:77 | The result is the first position of the character, or -1 iff it does not occur. |
| Strings.LastIndexOf | src/components/shared/OptimizedImage.tsx:79 | The result is the last position of the character, or -1 iff it does not occur. |
| Strings.Substring | src/components/shared/OptimizedImage.tsx:79 | `substring` with in-range indices is the slice between them, in either order. A negative start reads as 0, and an end past the string reads as its length. When both indices are at most 0 the result is empty, so `substring(0, -1)` is empty. |
| Strings.SubstringSwap | src/components/shared/OptimizedImage.tsx:79 | Swapping the two arguments of `substring` does not change the result. |
| Strings.NatToStringRoundTrip | src/utils/imageOptimization.ts:56 | The decimal rendering of a size reads back as the same number. |
| Strings.JoinAppend | src/utils/imageOptimization.ts:44 | Joining two non-empty lists together equals joining each and putting one separator between them. |
| ImageOptimization.WidthFor | src/utils/imageOptimization.ts:25-32 | The result is `min(baseWidth, b)` for the first breakpoint `b` with viewport ≤ `b`. When no breakpoint fits, it is `baseWidth`. |
| ImageOptimization.OptimalImageWidth | src/utils/imageOptimization.ts:11-33 | Never above `baseWidth`. Equals `baseWidth` when the viewport exceeds 1536; otherwise the first fitting breakpoint of 640, 768, 1024, 1280, 1536 decides. |
| ImageOptimization.WidthForMonotone | src/utils/imageOptimization.ts:16-29 | With ascending breakpoints, a wider viewport never gives a narrower image. |
| ImageOptimization.OptimalImageWidthMonotone | src/utils/imageOptimization.ts:11-33 | `getOptimalImageWidth` is monotone in the viewport width. |
| ImageOptimization.NarrowImagesKeepWidth | src/utils/imageOptimization.ts:17-21 | An image at most 640 wide keeps its width at every viewport. |
| ImageOptimization.UnsplashTestRedundant | src/utils/imageOptimization.ts:55 | Containing `images.unsplash.com` implies containing `unsplash.com`. |
| ImageOptimization.ImageUrlForSize | src/utils/imageOptimization.ts:53-62 | A URL containing `unsplash.com` gets `&w=<size>&q=80` appended; any other URL is unchanged. |
| ImageOptimization.UnsplashWidthReadable | src/utils/imageOptimization.ts:56 | The requested size can be read back from between `&w=` and `&q=80`. |
| ImageOptimization.CreateSrcSet | src/utils/imageOptimization.ts:41-45 | An empty size list gives the empty string and a single size gives its single candidate. Otherwise the srcset starts with the first candidate and ends with the last. |
| ImageOptimization.SrcSetAppend | src/utils/imageOptimization.ts:41-45 | The srcset of `xs + ys` is the srcset of `xs`, then `", "`, then the srcset of `ys`. |
| ImageOptimization.IsInViewport | src/utils/imageOptimization.ts:84-91 | The four comparisons of lines 87-90, with a zero inner size falling back to the client size. ImageOptimization.InViewportIffOverlap states that together they mean overlap with the viewport grown by the offset. ImageOptimization.InViewportMonotone states that a larger offset admits more elements. |
| ImageOptimization.InViewportMonotone | src/utils/imageOptimization.ts:87-90 | If the test holds for an offset, it holds for every larger offset. |
| ImageOptimization.InViewportIffOverlap | src/utils/imageOptimization.ts:84-91 | Assume a proper rectangle and a non-empty viewport grown by the offset. The test then holds iff the two share a point. |
| OptimizedImage.PathPart | src/components/shared/OptimizedImage.tsx:77 | `split('?')[0]` is the '?'-free prefix that ends at the first '?' or at the end. |
| OptimizedImage.QueryPart | src/components/shared/OptimizedImage.tsx:78 | The query is empty without a '?'. Otherwise it is the '?'-free text between the first and second '?'. |
| OptimizedImage.Stem | src/components/shared/OptimizedImage.tsx:79 | The stem is the prefix before the last '.'. With no '.', it is empty. |
| OptimizedImage.OptimalSrc | src/components/shared/OptimizedImage.tsx:75-83 | The source is unchanged without WebP support, when it ends with `.webp`, or when it starts with `data:`. Otherwise the result is the stem, then `.webp`, then `?` and the query iff the query is non-empty. |
| OptimizedImage.PathPartOf | src/components/shared/OptimizedImage.tsx:77 | The path part of `x + rest` is `x` when `x` has no '?' and `rest` is empty or starts with '?'. |
| OptimizedImage.StemOf | src/components/shared/OptimizedImage.tsx:79 | The stem of `x + "." + y` is `x` when `y` has no '.'. |
| OptimizedImage.PartsOf | src/components/shared/OptimizedImage.tsx:77-78 | For `base + "?" + q + rest` with '?'-free `base` and `q`, the path part is `base` and the query is `q`. |
| OptimizedImage.RewriteOf | src/components/shared/OptimizedImage.tsx:77-80 | `x.y?q?more` is rewritten to `x.webp?q`, so everything after a second '?' is dropped. |
| OptimizedImage.RewrittenEndsWithWebp | src/components/shared/OptimizedImage.tsx:79-80 | A rewritten source with no query ends with `.webp`. |
| OptimizedImage.NoDotCollapses | src/components/shared/OptimizedImage.tsx:79 | With no '.' in the path part, the path collapses to `.webp`. |
| OptimizedImage.QueryRewriteIsFixpoint | src/components/shared/OptimizedImage.tsx:76-80 | A rewritten source with a query is rewritten to itself. |
| OptimizedImage.OptimalSrcIdempotent | src/components/shared/OptimizedImage.tsx:75-83 | Applying `getOptimalSrc` to its own output changes nothing. |
| OptimizedImage.LoadingAttr | src/components/shared/OptimizedImage.tsx:111 | The main image is `lazy` iff not `priority`, and `eager` otherwise. Execom.CardImageHints applies it to the Execom cards. |
| OptimizedImage.FetchPriorityAttr | src/components/shared/OptimizedImage.tsx:120 | fetchPriority is `high` iff `priority`, and `auto` otherwise. Execom.CardImageHints applies it to the Execom cards. |
| OptimizedImage.WithDefaults | src/components/shared/OptimizedImage.tsx:29-30 | A missing `placeholderSrc` becomes `/placeholder.svg` and a missing `priority` becomes false; given values are kept. Execom.CardPlaceholderIsPrecached draws the consequence for the Execom cards. |
| OptimizedImage.ResetState | src/components/shared/OptimizedImage.tsx:37-41 | The reset leaves the image not loaded, without error, and with the placeholder as `currentSrc`. OptimizedImage.Step applies it on every dependency change. |
| OptimizedImage.Preload | src/components/shared/OptimizedImage.tsx:43-47 | The source is preloaded iff `priority`. Execom.CardImageHints shows this happens for the first three cards only. |
| OptimizedImage.HandleLoad | src/components/shared/OptimizedImage.tsx:54-57 | A load sets `loaded` and keeps `error` and `currentSrc`. OptimizedImage.FlagsRecordEvents draws the consequence over any sequence of events. |
| OptimizedImage.HandleError | src/components/shared/OptimizedImage.tsx:60-63 | An error sets `error` and keeps `loaded` and `currentSrc`. OptimizedImage.FlagsRecordEvents draws the consequence over any sequence of events. |
| OptimizedImage.Step | src/components/shared/OptimizedImage.tsx:37-63 | A rerender with a changed `src`, `placeholderSrc` or `priority` resets the state to not loaded, no error, and the placeholder as `currentSrc`. Identical props keep the state. A load sets only `loaded`, and an error sets only `error`. |
| OptimizedImage.CurrentSrcIsPlaceholder | src/components/shared/OptimizedImage.tsx:35-41 | Over any sequence of events, `currentSrc` is always the current placeholder. |
| OptimizedImage.FlagsRecordEvents | src/components/shared/OptimizedImage.tsx:33-63 | While the props stay the same, `loaded` holds iff it held before or a load occurred. The same goes for `error` and error events. |
| OptimizedImage.PlaceholderUntilLoad | src/components/shared/OptimizedImage.tsx:97-128 | After mount with fixed props, the placeholder shows iff no load happened, and the error overlay shows iff an error happened. |
| Team.MemberImageSrc | src/pages/Team.tsx:100-103 | An image starting with `http` gets `w=300&q=75&auto=format`, after `&` if it already contains '?' and after `?` otherwise. Other images are unchanged. |
| Team.ExternalParamsInQuery | src/pages/Team.tsx:100-103 | The rewritten URL extends the original and ends with the parameters. Its first '?' stays where it was, or is the one just added. |
| Team.CardLoading | src/pages/Team.tsx:122 | A card loads eagerly iff its index is below 6. Team.SectionImageHints counts the consequence per section. |
| Team.CardFetchPriority | src/pages/Team.tsx:125 | A card has high fetch priority iff its index is below 3. Team.SectionImageHints counts the consequence per section. |
| Team.SectionImageHints | src/pages/Team.tsx:218-271 | Every sub-list numbers its cards from 0. An expanded section therefore has min(3, n) high-priority and min(6, n) eager cards per sub-list of n members, so up to 12 high-priority images per section. (corrected reading, see "## Findings") |
| Team.AllMembersAsWritten | src/pages/Team.tsx:174-179 | As written, `allMembers` succeeds iff all four lists exist. It is then their concatenation in the order nodalOfficers, iph, crl, sl. |
| Team.Spread | src/pages/Team.tsx:174-179 | Spreading a missing list throws a TypeError, and spreading a present list yields its members. Team.AllMembersAsWritten and Team.ExecutiveCommitteeThrows show the consequence. |
| Team.ExecutiveCommitteeThrows | src/pages/Team.tsx:14 | For the Executive Committee entry, which defines only `nodalOfficers` of the four lists, the as-written `allMembers` throws. |
| Team.AllMembers | src/pages/Team.tsx:174-179 | With a missing list read as empty, the length is the sum of the four list lengths. The result agrees with the as-written version whenever that succeeds. |
| Team.CrlHeading | src/pages/Team.tsx:249 | The crl heading is `Corresponding Leads` iff the title is `Executive Committee`, and `Team Members` otherwise. Team.Subsections places the crl list under it. |
| Team.Subsections | src/pages/Team.tsx:218-271 | Each of the four lists appears iff it is non-empty, under its own heading and in this order: `Nodal Officers`, `Innovation & Program Heads`, the crl heading, `Sub-Leads`. The crl heading is `Corresponding Leads` for the Executive Committee and `Team Members` otherwise. (corrected reading, see "## Findings") |
| Team.SubsectionsAreOwnLists | src/pages/Team.tsx:218-271 | An expanded section shows nothing but its own four lists, each under its own heading. (corrected reading, see "## Findings") |
| Team.SubsectionsShowAllMembers | src/pages/Team.tsx:174-271 | The cards of an expanded section, read in order, are exactly `allMembers`. (corrected reading, see "## Findings") |
| Team.RenderSection | src/pages/Team.tsx:168-278 | A section renders nothing iff it has no members. A collapsed section shows no cards. An expanded one shows the sub-lists `Subsections` gives, with their headings in source order, and their cards are exactly `allMembers`. (corrected reading, see "## Findings") |
| Team.SectionRenderedIffMembers | src/pages/Team.tsx:181 | A section is rendered iff one of its four lists is non-empty. (corrected reading, see "## Findings") |
| Team.ToggleSection | src/pages/Team.tsx:293-298 | Toggling negates the entry for the name, with a missing entry read as false. Every other key is kept with its value. |
| Team.ToggleTwice | src/pages/Team.tsx:293-298 | Toggling a section twice restores how every section reads. |
| Team.SelectYear | src/pages/Team.tsx:344-347 | Selecting a year sets it. The expanded map becomes exactly `{"Executive Committee": true}`, so only that section is expanded. |
| Team.ToggleOnPage | src/pages/Team.tsx:388-389 | Clicking a section flips only that section and keeps the selected year. |
| Team.SelectYearForgetsToggles | src/pages/Team.tsx:344-347 | After a year change, earlier toggles leave no trace, and the map equals the initial one. |
| Team.SelectedYearExpandsOnlyExecutiveCommittee | src/pages/Team.tsx:344-389 | After a year tab is clicked, a rendered section is expanded iff its title is `Executive Committee`, and collapsed sections show no cards. |
| Team.FindYear | src/pages/Team.tsx:291 | `find` returns the first entry for the year, or nothing iff no entry has it. |
| Team.RenderPage | src/pages/Team.tsx:383-391 | No matching year gives no sections. Otherwise entry i belongs to team i of the selected year: it is empty iff that team has no members, and it carries the team's title. Entry i is that team's `TeamSection`, with its expansion read from the map. A collapsed entry shows nothing, and an expanded one shows the team's `Subsections`, whose cards are exactly its `allMembers`. (corrected reading, see "## Findings") |
| Team.ShowsComingSoon | src/pages/Team.tsx:397 | "Coming Soon!" shows iff the first entry for the selected year exists and is inactive. |
| Execom.SetVisible | src/pages/Execom.tsx:216 | Setting index `k` makes it true and keeps every other flag. An index past the end grows the array, and the holes read as false. |
| Execom.InitialVisible | src/pages/Execom.tsx:200-202 | There is one flag per member, and flag i starts true iff i < 12. Execom.FirstTwelveAlwaysRendered draws the consequence. |
| Execom.InView | src/pages/Execom.tsx:215 | Container i counts as in view iff `isInViewport` holds for its rectangle with offset 300. |
| Execom.MarkFrom | src/pages/Execom.tsx:214-218 | After the loop, a flag is on iff it was on before or its container is in view. The length never shrinks, and it is unchanged when there are no more containers than flags. |
| Execom.CheckVisibility | src/pages/Execom.tsx:208-221 | With no section element, nothing changes. Otherwise a flag is on iff it was on or its container is within 300 px of the viewport. No true flag becomes false. |
| Execom.CheckVisibilityIdempotent | src/pages/Execom.tsx:208-221 | A second check against the same geometry changes nothing. |
| Execom.RunChecksHistory | src/pages/Execom.tsx:208-235 | After any run of checks, a flag is on iff it was on initially or some check that had the section element saw that card in view. |
| Execom.VisibleStaysVisible | src/pages/Execom.tsx:212-218 | A rendered card is never replaced by its placeholder again. |
| Execom.FirstTwelveAlwaysRendered | src/pages/Execom.tsx:200-255 | The first twelve members are rendered as cards from the start, whatever checks follow. |
| Execom.CardRendered | src/pages/Execom.tsx:248-255 | Index i shows the member card iff its flag exists and is true, and the grey placeholder otherwise. |
| Execom.CardPriority | src/pages/Execom.tsx:167 | A card's image has `priority` iff its index is below 3. Execom.CardImageHints draws the consequence. |
| Execom.CardImageHints | src/pages/Execom.tsx:163-168 | Through OptimizedImage, cards 0 to 2 load eagerly at high priority and are preloaded. The rest load lazily at auto priority and are not preloaded. |
| Execom.CardPlaceholderIsPrecached | src/pages/Execom.tsx:163-168 | A card passes no placeholder, so it gets `/placeholder.svg`. That placeholder is one of the assets install stores in the general cache, and it shows until the photo loads. |
| Execom.EffectRunAsWritten | src/pages/Execom.tsx:208-235 | As written, an effect run with the section element present always commits a fresh array, which schedules another run. Without the element it does nothing. |
| Execom.EffectNeverSettlesAsWritten | src/pages/Execom.tsx:208-235 | As written, n runs commit n arrays, and each commit schedules one more run, so the effect never settles. The flags stop changing after the first run. |
| Execom.EffectRun | src/pages/Execom.tsx:208-235 | Corrected: a run commits iff some flag changed, and a run that commits nothing leaves the state as it was. |
| Execom.EffectSettlesAfterOneRun | src/pages/Execom.tsx:208-235 | Corrected: the run scheduled by a commit commits nothing, so any number of runs ends where the first did. The shown flags match the as-written effect. |

## Left out

- Everything after line 115 of `public/service-worker.js` is not part of this model: the file ends in the middle of the same-origin image branch. The background refresh of cached images and the network-first branch for API and JSON requests are therefore not modelled. Same-origin requests that are not images end in `SameOriginOther`.
- ServiceWorker.ImageCacheLookup: states only the cache lookup at lines 108-112. What the branch replies and writes after that point is past the end of the file.
- ServiceWorker.HandleFetch: for same-origin requests that are not images, it states only that the request reaches that branch, because the branch is past the end of the file.
- Promise timing and interleaving. Each handler is modelled as if its asynchronous steps ran to completion in program order. Background cache writes are already applied in the resulting storage. The two `caches.open` calls at install run in the fixed order general, then image.
- `self.skipWaiting()` and `self.clients.claim()`: they affect which worker controls pages, not the caches. Install's `ok` records whether `skipWaiting` is reached.
- Cache matching details. Keys are the parsed URL: origin, path and query. Vary headers, `ignoreSearch`, response cloning, headers and opaque responses are not modelled. A `respondWith(null)` is modelled as no reply.
- `preloadCriticalImages`: it only inserts `<link>` elements into the DOM.
- The canvas-based `supportsWebp` probe is a boolean parameter. `getBoundingClientRect`, `window.innerWidth`/`innerHeight` and the client size are integer parameters. Floating-point and NaN geometry is not modelled.
- Sizes in `createSrcSet`/`getImageUrlForSize` are integers. JavaScript's rendering of fractional numbers is not modelled.
- The `onLoad` callback prop and the `console.error` call in `handleError` are side effects with no effect on state.
- Execom.RunChecksHistory: assumes every check reads the flags committed last. As written, `checkVisibility` closes over the `visibleMembers` of its own render (Execom.tsx:212, 221). A scroll or resize listener left from an earlier render can therefore run with stale flags. Its `setVisibleMembers` would then drop flags set in between. React's scheduling of listeners and renders is not modelled.
- Execom.VisibleStaysVisible: rests on the same assumption. A check run from a stale closure can turn a card back into its placeholder. Execom.FirstTwelveAlwaysRendered does not depend on it, because those flags are true in every array.
- `isInViewport`'s default offset of 200 (imageOptimization.ts:84) is not modelled as a default: the only caller, Execom.tsx:215, passes 300.
- Execom's `useState` initialiser runs only on the first render, so the flags' length is fixed at mount. The model takes the flags as given. Registering and removing the scroll and resize listeners is represented by the sequence of checks.
- All JSX layout, framer-motion animation, CSS classes, LinkedIn buttons, card animation delays, and React memoisation.
- The date comparisons in src/pages/Events.tsx and src/pages/EventDetail.tsx: they depend on locale string parsing and the wall clock.
- The data literals (src/data/events.ts, src/data/execom.ts, and the member lists inside the pages), and the About, Index, Gallery and Navigation pages. The build configuration files are also left out.

## Findings

| source | as written | input that shows it | evidently intended | confidence | as-written member | corrected member |
|---|---|---|---|---|---|---|
| src/pages/Team.tsx:174-179 | `allMembers` spreads `members.iph`, `members.crl` and `members.sl`. The "Executive Committee" team of the current year (Team.tsx:14) is `execomMembers` from src/data/execom.ts. That object defines `nodalOfficers` and role-named lists (`cio`, `epl`, …), but no `iph`, `crl` or `sl`. Spreading `undefined` throws a TypeError, and the `.length` checks at lines 232, 246 and 260 would too. | Opening the Team page: the initial year `2025-2026` renders the "Executive Committee" section | Each section renders the lists it has, with a missing list read as empty | not executed | `Team.AllMembersAsWritten`, `Team.ExecutiveCommitteeThrows` | `Team.AllMembers`, `Team.SubsectionsShowAllMembers`, `Team.Subsections`, `Team.RenderSection`, `Team.SectionRenderedIffMembers`, `Team.RenderPage` |
| src/pages/Execom.tsx:208-235 | `checkVisibility` always commits a fresh copy of the flags (lines 212 and 220). It is re-created whenever `visibleMembers` changes (line 221), and the effect reruns whenever `checkVisibility` changes (line 235) and calls it (line 225). Once the section element is attached, every run therefore schedules another, even when no flag changed. | Any Execom section after its element is attached, with the page not scrolled | Check on mount, scroll and resize, and stop once a check changes nothing | not executed | `Execom.EffectRunAsWritten`, `Execom.EffectNeverSettlesAsWritten` | `Execom.EffectRun`, `Execom.EffectSettlesAfterOneRun` |

=== FILE: execom.dfy ===
/**
 The progressive rendering of src/pages/Execom.tsx: each section keeps one
 visibility flag per member; the first twelve start visible, and a
 visibility check only ever turns flags on, for members whose card
 container is near the viewport. Element rectangles and the viewport size
 are parameters.
 */
module Execom {
  import opened ImageOptimization
  import opened Wrappers
  import OptimizedImage
  import ServiceWorker

  /** How many members of a section are rendered before any check. */
  const InitiallyVisible: nat := 12
  /** The viewport margin of the visibility check. */
  const VisibilityOffset: int := 300
  /** Cards at indices below this get a priority image. */
  const PriorityCards: nat := 3

  /**
   Reads a flag as the JSX does: an index past the end of the array reads
   `undefined`, which is falsy.
   */
  function Flag(flags: seq<bool>, i: nat): bool {
    i < |flags| && flags[i]
  }

  /** `members.map((_, index) => index < 12)` */
  function InitialVisible(count: nat): (r: seq<bool>)
    ensures |r| == count
    ensures forall i :: 0 <= i < count ==> (r[i] <==> i < InitiallyVisible)
  {
    seq(count, i => i < InitiallyVisible)
  }

  /**
   `newVisibleMembers[k] = true`. Assigning past the end grows the array; the
   holes it leaves read as `undefined`, written `false` here.
   */
  function SetVisible(flags: seq<bool>, k: nat): (r: seq<bool>)
    ensures |r| == if k < |flags| then |flags| else k + 1
    ensures Flag(r, k)
    ensures forall i: nat :: i != k ==> Flag(r, i) == Flag(flags, i)
    ensures |r| > |flags| ==> r[|r| - 1]
  {
    if k < |flags| then flags[k := true]
    else flags + seq(k - |flags|, _ => false) + [true]
  }

  /** The `forEach` over card containers, from index `k` on. */
  function MarkFrom(flags: seq<bool>, inView: seq<bool>, k: nat): (r: seq<bool>)
    requires k <= |inView|
    ensures |flags| <= |r|
    ensures |inView| <= |flags| ==> |r| == |flags|
    ensures forall i: nat :: Flag(r, i) <==> Flag(flags, i) || (k <= i < |inView| && inView[i])
    ensures |r| > |flags| ==> r[|r| - 1]
    decreases |inView| - k
  {
    if k == |inView| then flags
    else MarkFrom(if inView[k] then SetVisible(flags, k) else flags, inView, k + 1)
  }

  /** Which card containers pass `isInViewport(el, 300)`. */
  function InView(rects: seq<Rect>, v: Viewport): (r: seq<bool>)
    ensures |r| == |rects|
    ensures forall i :: 0 <= i < |rects| ==> r[i] == IsInViewport(rects[i], v, VisibilityOffset)
  {
    seq(|rects|, i requires 0 <= i < |rects| => IsInViewport(rects[i], v, VisibilityOffset))
  }

  /**
   `checkVisibility`: a no-op without the section element; otherwise every
   card container near the viewport has its flag set, and no flag is cleared.
   */
  function CheckVisibility(flags: seq<bool>, hasSection: bool, rects: seq<Rect>, v: Viewport): (r: seq<bool>)
    ensures !hasSection ==> r == flags
    ensures forall i: nat :: Flag(flags, i) ==> Flag(r, i)
    ensures forall i: nat :: Flag(r, i) <==>
      Flag(flags, i) || (hasSection && i < |rects| && IsInViewport(rects[i], v, VisibilityOffset))
    ensures |rects| <= |flags| ==> |r| == |flags|
    ensures |flags| <= |r|
    ensures |r| > |flags| ==> r[|r| - 1]
  {
    if !hasSection then flags else MarkFrom(flags, InView(rects, v), 0)
  }

  /** One scroll or resize event, with the geometry it observes. */
  datatype Check = Check(hasSection: bool, rects: seq<Rect>, viewport: Viewport)

  function RunChecks(flags: seq<bool>, checks: seq<Check>): seq<bool>
    decreases |checks|
  {
    if |checks| == 0 then flags
    else RunChecks(CheckVisibility(flags, checks[0].hasSection, checks[0].rects, checks[0].viewport), checks[1..])
  }

  /** Check `j` saw card `i` near the viewport. */
  ghost predicate SeenBy(checks: seq<Check>, j: int, i: nat) {
    && 0 <= j < |checks|
    && checks[j].hasSection
    && i < |checks[j].rects|
    && IsInViewport(checks[j].rects[i], checks[j].viewport, VisibilityOffset)
  }

  /** After any run of checks a flag is on exactly when it was on before or some check saw the card. */
  lemma {:induction false} RunChecksHistory(flags: seq<bool>, checks: seq<Check>, i: nat)
    ensures Flag(RunChecks(flags, checks), i) <==> Flag(flags, i) || exists j :: SeenBy(checks, j, i)
    decreases |checks|
  {
    if |checks| > 0 {
      var c := checks[0];
      var next := CheckVisibility(flags, c.hasSection, c.rects, c.viewport);
      RunChecksHistory(next, checks[1..], i);
      assert Flag(next, i) <==> Flag(flags, i) || SeenBy(checks, 0, i);
      if exists j :: SeenBy(checks[1..], j, i) {
        var j :| SeenBy(checks[1..], j, i);
        assert SeenBy(checks, j + 1, i);
      }
      if exists j :: SeenBy(checks, j, i) {
        var j :| SeenBy(checks, j, i);
        if j > 0 {
          assert SeenBy(checks[1..], j - 1, i);
        }
      }
    }
  }

  /** A second check against the same geometry changes nothing. */
  lemma {:induction false} CheckVisibilityIdempotent(flags: seq<bool>, hasSection: bool, rects: seq<Rect>, v: Viewport)
    ensures var once := CheckVisibility(flags, hasSection, rects, v);
      CheckVisibility(once, hasSection, rects, v) == once
  {
    var once := CheckVisibility(flags, hasSection, rects, v);
    var twice := CheckVisibility(once, hasSection, rects, v);
    assert forall i: nat :: Flag(twice, i) == Flag(once, i);
    if |twice| > |once| {
      assert Flag(twice, |twice| - 1);
      assert false;
    }
    forall i | 0 <= i < |once|
      ensures twice[i] == once[i]
    {
      assert Flag(twice, i) == Flag(once, i);
    }
  }

  /** Visibility is monotone: a rendered card is never replaced by its placeholder again. */
  lemma VisibleStaysVisible(flags: seq<bool>, checks: seq<Check>, i: nat)
    requires Flag(flags, i)
    ensures Flag(RunChecks(flags, checks), i)
  {
    RunChecksHistory(flags, checks, i);
  }

  /** The first twelve members of a section are rendered from the start and stay rendered. */
  lemma FirstTwelveAlwaysRendered(count: nat, checks: seq<Check>, i: nat)
    requires i < count && i < InitiallyVisible
    ensures CardRendered(RunChecks(InitialVisible(count), checks), i)
  {
    VisibleStaysVisible(InitialVisible(count), checks, i);
  }

  /** Whether index `i` shows the member card rather than the grey placeholder. */
  function CardRendered(flags: seq<bool>, i: nat): (r: bool)
    ensures r <==> i < |flags| && flags[i]
  {
    Flag(flags, i)
  }

  /** The `priority` prop of the card at `index`. */
  function CardPriority(index: int): (r: bool)
    ensures r <==> index < PriorityCards
  {
    index < PriorityCards
  }

  /** The props a card passes to OptimizedImage: its photo, no placeholder, and `priority={index < 3}`. */
  function CardImageProps(image: string, index: int): OptimizedImage.ImageProps {
    OptimizedImage.WithDefaults(image, None, Some(CardPriority(index)))
  }

  /**
   Every card shows `/placeholder.svg` until its photo loads (or for good,
   when it fails). That placeholder is one of the assets install stores in
   the general cache; the worker's image branch reads only the image cache,
   so it does not answer from that copy (ServiceWorker.PrecachedAssetMissesImageCache).
   */
  lemma CardPlaceholderIsPrecached(image: string, index: int, events: seq<OptimizedImage.ImageEvent>)
    requires OptimizedImage.PropsStay(events, CardImageProps(image, index))
    ensures CardImageProps(image, index).placeholderSrc == "/placeholder.svg"
    ensures CardImageProps(image, index).placeholderSrc in ServiceWorker.PrecacheAssets
    ensures OptimizedImage.ShowsPlaceholder(OptimizedImage.Run(OptimizedImage.Mount(CardImageProps(image, index)), events).state)
      <==> OptimizedImage.Loaded !in events
  {
    OptimizedImage.PlaceholderUntilLoad(CardImageProps(image, index), events);
  }

  /** Through OptimizedImage, the first three cards load eagerly at high priority, the rest lazily. */
  lemma CardImageHints(image: string, index: int)
    ensures OptimizedImage.LoadingAttr(CardImageProps(image, index).priority) == (if index < 3 then "eager" else "lazy")
    ensures OptimizedImage.FetchPriorityAttr(CardImageProps(image, index).priority) == (if index < 3 then "high" else "auto")
    ensures OptimizedImage.Preload(CardImageProps(image, index)) == (if index < 3 then Some(image) else None)
  {
  }

  // ---------------------------------------------------------------------------
  // The visibility effect and its re-runs
  // ---------------------------------------------------------------------------

  /**
   What the visibility effect depends on: the committed flags, and how many
   arrays `setVisibleMembers` has committed. Every committed array is a new
   object, so it re-creates `checkVisibility`, whose identity is the effect's
   only dependency: each commit schedules one more run of the effect.
   */
  datatype SectionState = SectionState(flags: seq<bool>, commits: nat)

  /** One run of the effect as written: with the section element present, a fresh copy is always committed. */
  function EffectRunAsWritten(st: SectionState, c: Check): (r: SectionState)
    ensures r.flags == CheckVisibility(st.flags, c.hasSection, c.rects, c.viewport)
    ensures r.commits > st.commits <==> c.hasSection
  {
    if c.hasSection then SectionState(CheckVisibility(st.flags, true, c.rects, c.viewport), st.commits + 1)
    else st
  }

  /** `n` consecutive runs of the effect as written, under unchanged geometry. */
  function RunEffectAsWritten(st: SectionState, c: Check, n: nat): SectionState
    decreases n
  {
    if n == 0 then st else RunEffectAsWritten(EffectRunAsWritten(st, c), c, n - 1)
  }

  /**
   As written, once the section element is attached the effect never
   settles: each of any number of runs commits an array, which schedules
   the next run, though the flags stop changing after the first.
   */
  lemma {:induction false} EffectNeverSettlesAsWritten(st: SectionState, c: Check, n: nat)
    requires c.hasSection
    ensures RunEffectAsWritten(st, c, n).commits == st.commits + n
    ensures n > 0 ==> RunEffectAsWritten(st, c, n).flags == CheckVisibility(st.flags, true, c.rects, c.viewport)
    decreases n
  {
    if n > 1 {
      var once := EffectRunAsWritten(st, c);
      EffectNeverSettlesAsWritten(once, c, n - 1);
      CheckVisibilityIdempotent(st.flags, true, c.rects, c.viewport);
    }
  }

  /** One run of the effect committing only when a flag changed. */
  function EffectRun(st: SectionState, c: Check): (r: SectionState)
    ensures r.flags == CheckVisibility(st.flags, c.hasSection, c.rects, c.viewport)
    ensures r.commits == st.commits <==> r.flags == st.flags
    ensures r.commits == st.commits ==> r == st
  {
    var next := CheckVisibility(st.flags, c.hasSection, c.rects, c.viewport);
    if next == st.flags then st else SectionState(next, st.commits + 1)
  }

  function RunEffect(st: SectionState, c: Check, n: nat): SectionState
    decreases n
  {
    if n == 0 then st else RunEffect(EffectRun(st, c), c, n - 1)
  }

  /**
   Committing only on change, the run scheduled by a commit commits nothing,
   so under unchanged geometry any number of runs ends where the first did,
   showing the same flags as the effect as written.
   */
  lemma {:induction false} EffectSettlesAfterOneRun(st: SectionState, c: Check, n: nat)
    requires n > 0
    ensures EffectRun(EffectRun(st, c), c) == EffectRun(st, c)
    ensures RunEffect(st, c, n) == EffectRun(st, c)
    ensures c.hasSection ==> RunEffect(st, c, n).flags == RunEffectAsWritten(st, c, n).flags
    decreases n
  {
    var once := EffectRun(st, c);
    CheckVisibilityIdempotent(st.flags, c.hasSection, c.rects, c.viewport);
    assert EffectRun(once, c).flags == once.flags;
    if n > 1 {
      EffectSettlesAfterOneRun(once, c, n - 1);
    }
    if c.hasSection {
      EffectNeverSettlesAsWritten(st, c, n);
    }
  }
}

=== FILE: image_optimization.dfy ===
/**
 The image URL and viewport utilities of src/utils/imageOptimization.ts.
 `window.innerWidth`, `window.innerHeight`, the document's client size and
 `getBoundingClientRect()` are passed in as integers.
 */
module ImageOptimization {
  import opened Strings

  /** Viewport widths of the sm, md, lg, xl and 2xl breakpoints, ascending. */
  const Breakpoints: seq<int> := [640, 768, 1024, 1280, 1536]

  function Min(a: int, b: int): int {
    if a <= b then a else b
  }

  // ---------------------------------------------------------------------------
  // getOptimalImageWidth
  // ---------------------------------------------------------------------------

  /** `bps[k]` is the first breakpoint at least as wide as the viewport. */
  ghost predicate IsFirstFit(bps: seq<int>, viewportWidth: int, k: int) {
    && 0 <= k < |bps|
    && viewportWidth <= bps[k]
    && forall j :: 0 <= j < k ==> bps[j] < viewportWidth
  }

  ghost predicate Ascending(bps: seq<int>) {
    forall i, j :: 0 <= i < j < |bps| ==> bps[i] <= bps[j]
  }

  /** The loop over the breakpoints: the first that fits decides, else the base width. */
  function WidthFor(bps: seq<int>, baseWidth: int, viewportWidth: int): (r: int)
    ensures r <= baseWidth
    ensures || (exists k :: IsFirstFit(bps, viewportWidth, k) && r == Min(baseWidth, bps[k]))
            || ((forall j :: 0 <= j < |bps| ==> bps[j] < viewportWidth) && r == baseWidth)
  {
    if |bps| == 0 then baseWidth
    else if viewportWidth <= bps[0] then
      assert IsFirstFit(bps, viewportWidth, 0);
      Min(baseWidth, bps[0])
    else
      assert forall k :: IsFirstFit(bps[1..], viewportWidth, k) ==> IsFirstFit(bps, viewportWidth, k + 1);
      WidthFor(bps[1..], baseWidth, viewportWidth)
  }

  /** `getOptimalImageWidth(baseWidth)` with `window.innerWidth == viewportWidth`. */
  function OptimalImageWidth(baseWidth: int, viewportWidth: int): (r: int)
    ensures r <= baseWidth
    ensures viewportWidth > 1536 ==> r == baseWidth
    ensures viewportWidth <= 1536 ==>
      exists k :: IsFirstFit(Breakpoints, viewportWidth, k) && r == Min(baseWidth, Breakpoints[k])
  {
    assert Breakpoints[4] == 1536;
    WidthFor(Breakpoints, baseWidth, viewportWidth)
  }

  /** Over ascending breakpoints, a wider viewport never yields a narrower image. */
  lemma {:induction false} WidthForMonotone(bps: seq<int>, baseWidth: int, v1: int, v2: int)
    requires Ascending(bps)
    requires v1 <= v2
    ensures WidthFor(bps, baseWidth, v1) <= WidthFor(bps, baseWidth, v2)
    decreases |bps|
  {
    if |bps| > 0 {
      assert Ascending(bps[1..]);
      if v1 <= bps[0] {
        if v2 > bps[0] {
          var r2 := WidthFor(bps[1..], baseWidth, v2);
          if exists k :: IsFirstFit(bps[1..], v2, k) && r2 == Min(baseWidth, bps[1..][k]) {
            var k :| IsFirstFit(bps[1..], v2, k) && r2 == Min(baseWidth, bps[1..][k]);
            assert bps[0] <= bps[k + 1];
          }
        }
      } else {
        WidthForMonotone(bps[1..], baseWidth, v1, v2);
      }
    }
  }

  /** `getOptimalImageWidth` is monotone in the viewport width. */
  lemma OptimalImageWidthMonotone(baseWidth: int, v1: int, v2: int)
    requires v1 <= v2
    ensures OptimalImageWidth(baseWidth, v1) <= OptimalImageWidth(baseWidth, v2)
  {
    WidthForMonotone(Breakpoints, baseWidth, v1, v2);
  }

  /** An image no wider than the smallest breakpoint keeps its width at every viewport. */
  lemma {:induction false} NarrowImagesKeepWidth(baseWidth: int, viewportWidth: int)
    requires baseWidth <= 640
    ensures OptimalImageWidth(baseWidth, viewportWidth) == baseWidth
  {
    var r := OptimalImageWidth(baseWidth, viewportWidth);
    if viewportWidth <= 1536 {
      var k :| IsFirstFit(Breakpoints, viewportWidth, k) && r == Min(baseWidth, Breakpoints[k]);
      assert Breakpoints[k] >= 640;
    }
  }

  // ---------------------------------------------------------------------------
  // getImageUrlForSize and createSrcSet
  // ---------------------------------------------------------------------------

  /** The second host test of `getImageUrlForSize` adds nothing to the first. */
  lemma UnsplashTestRedundant(s: string)
    ensures Contains(s, "images.unsplash.com") ==> Contains(s, "unsplash.com")
  {
    if Contains(s, "images.unsplash.com") {
      ContainsWindow(s, "images.unsplash.com", 7, 12);
      assert "images.unsplash.com"[7..19] == "unsplash.com";
    }
  }

  /** `getImageUrlForSize(baseSrc, size)`: Unsplash URLs get width and quality parameters. */
  function ImageUrlForSize(baseSrc: string, size: int): (r: string)
    ensures Contains(baseSrc, "unsplash.com") ==> r == baseSrc + "&w=" + IntToString(size) + "&q=80"
    ensures !Contains(baseSrc, "unsplash.com") ==> r == baseSrc
  {
    UnsplashTestRedundant(baseSrc);
    if Contains(baseSrc, "unsplash.com") || Contains(baseSrc, "images.unsplash.com") then
      baseSrc + "&w=" + IntToString(size) + "&q=80"
    else
      baseSrc
  }

  /** The requested width can be read back from a rewritten Unsplash URL. */
  lemma {:induction false} UnsplashWidthReadable(baseSrc: string, size: nat)
    requires Contains(baseSrc, "unsplash.com")
    ensures var r := ImageUrlForSize(baseSrc, size);
      && StartsWith(r, baseSrc + "&w=")
      && EndsWith(r, "&q=80")
      && DecimalValue(r[|baseSrc| + 3..|r| - 5]) == size
  {
    var r := ImageUrlForSize(baseSrc, size);
    assert r[|baseSrc| + 3..|r| - 5] == NatToString(size);
    NatToStringRoundTrip(size);
  }

  /** One srcset candidate: `"<url> <size>w"`. */
  function SrcSetEntry(baseSrc: string, size: int): string {
    ImageUrlForSize(baseSrc, size) + " " + IntToString(size) + "w"
  }

  function SrcSetEntries(baseSrc: string, sizes: seq<int>): (es: seq<string>)
    ensures |es| == |sizes|
    ensures forall i :: 0 <= i < |sizes| ==> es[i] == SrcSetEntry(baseSrc, sizes[i])
  {
    seq(|sizes|, i requires 0 <= i < |sizes| => SrcSetEntry(baseSrc, sizes[i]))
  }

  /** `createSrcSet(baseSrc, sizes)` */
  function CreateSrcSet(baseSrc: string, sizes: seq<int>): (r: string)
    ensures |sizes| == 0 ==> r == ""
    ensures |sizes| == 1 ==> r == SrcSetEntry(baseSrc, sizes[0])
    ensures |sizes| > 0 ==> StartsWith(r, SrcSetEntry(baseSrc, sizes[0]))
    ensures |sizes| > 0 ==> EndsWith(r, SrcSetEntry(baseSrc, sizes[|sizes| - 1]))
  {
    var es := SrcSetEntries(baseSrc, sizes);
    JoinEnds(es, ", ");
    Join(es, ", ")
  }

  /** A srcset for consecutive size lists is the two srcsets joined by `", "`: entries keep input order. */
  lemma SrcSetAppend(baseSrc: string, xs: seq<int>, ys: seq<int>)
    requires |xs| > 0 && |ys| > 0
    ensures CreateSrcSet(baseSrc, xs + ys) == CreateSrcSet(baseSrc, xs) + ", " + CreateSrcSet(baseSrc, ys)
  {
    assert SrcSetEntries(baseSrc, xs + ys) == SrcSetEntries(baseSrc, xs) + SrcSetEntries(baseSrc, ys);
    JoinAppend(SrcSetEntries(baseSrc, xs), SrcSetEntries(baseSrc, ys), ", ");
  }

  // ---------------------------------------------------------------------------
  // isInViewport
  // ---------------------------------------------------------------------------

  /** A bounding client rectangle, in whole pixels. */
  datatype Rect = Rect(top: int, right: int, bottom: int, left: int)

  /** `window.innerWidth/innerHeight` and `document.documentElement.clientWidth/clientHeight`. */
  datatype Viewport = Viewport(innerWidth: int, innerHeight: int, clientWidth: int, clientHeight: int)

  /** `window.innerHeight || clientHeight`: a zero inner height falls back to the client height. */
  function ViewHeight(v: Viewport): int {
    if v.innerHeight != 0 then v.innerHeight else v.clientHeight
  }

  /** `window.innerWidth || clientWidth` */
  function ViewWidth(v: Viewport): int {
    if v.innerWidth != 0 then v.innerWidth else v.clientWidth
  }

  /** `isInViewport(element, offset)` for an element whose bounding rectangle is `rect`. */
  function IsInViewport(rect: Rect, v: Viewport, offset: int): bool {
    && rect.bottom >= -offset
    && rect.right >= -offset
    && rect.top <= ViewHeight(v) + offset
    && rect.left <= ViewWidth(v) + offset
  }

  /** A larger margin never excludes an element a smaller one admits. */
  lemma InViewportMonotone(rect: Rect, v: Viewport, offset: int, larger: int)
    requires offset <= larger
    requires IsInViewport(rect, v, offset)
    ensures IsInViewport(rect, v, larger)
  {
  }

  ghost predicate InRect(rect: Rect, x: int, y: int) {
    rect.left <= x <= rect.right && rect.top <= y <= rect.bottom
  }

  /** The viewport grown by `offset` on every side. */
  ghost predicate InGrownViewport(v: Viewport, offset: int, x: int, y: int) {
    -offset <= x <= ViewWidth(v) + offset && -offset <= y <= ViewHeight(v) + offset
  }

  function Max(a: int, b: int): int {
    if a >= b then a else b
  }

  /**
   Geometric meaning: for a proper rectangle and a non-empty grown viewport,
   the test holds exactly when the rectangle shares a point with the viewport
   grown by `offset`.
   */
  lemma {:induction false} InViewportIffOverlap(rect: Rect, v: Viewport, offset: int)
    requires rect.top <= rect.bottom && rect.left <= rect.right
    requires -offset <= ViewWidth(v) + offset && -offset <= ViewHeight(v) + offset
    ensures IsInViewport(rect, v, offset) <==>
      exists x, y :: InRect(rect, x, y) && InGrownViewport(v, offset, x, y)
  {
    if IsInViewport(rect, v, offset) {
      var x := Max(rect.left, -offset);
      var y := Max(rect.top, -offset);
      assert InRect(rect, x, y) && InGrownViewport(v, offset, x, y);
    }
  }
}

=== FILE: optimized_image.dfy ===
/**
 The OptimizedImage component of src/components/shared/OptimizedImage.tsx:
 the WebP source rewrite, the loading attributes, and the loaded/error
 state with its reset effect. WebP support (a canvas probe in the source)
 is a boolean parameter.
 */
module OptimizedImage {
  import opened Wrappers
  import opened Strings

  /** The `placeholderSrc` used when the caller gives none. */
  const DefaultPlaceholder: string := "/placeholder.svg"

  // ---------------------------------------------------------------------------
  // getOptimalSrc
  // ---------------------------------------------------------------------------

  /** `src.split('?')[0]`: everything before the first '?'. */
  function PathPart(src: string): (r: string)
    ensures '?' !in r
    ensures StartsWith(src, r)
    ensures |r| < |src| ==> src[|r|] == '?'
    ensures '?' !in src ==> r == src
  {
    var q := IndexOf(src, '?');
    if q < 0 then src else src[..q]
  }

  /** `src.includes('?') ? src.split('?')[1] : ''`: the text between the first and the second '?'. */
  function QueryPart(src: string): (r: string)
    ensures '?' !in r
    ensures '?' !in src ==> r == ""
    ensures '?' in src ==> r == PathPart(src[|PathPart(src)| + 1..])
  {
    ContainsChar(src, '?');
    if Contains(src, "?") then PathPart(src[|PathPart(src)| + 1..]) else ""
  }

  /** `base.substring(0, base.lastIndexOf('.'))`: the text before the last '.', or "" when there is none. */
  function Stem(base: string): (r: string)
    ensures StartsWith(base, r)
    ensures '.' !in base ==> r == ""
    ensures '.' in base ==> |r| < |base| && base[|r|] == '.' && '.' !in base[|r| + 1..]
  {
    Substring(base, 0, LastIndexOf(base, '.'))
  }

  /** The conditions under which `getOptimalSrc` rewrites the source. */
  predicate Rewrites(src: string, supportsWebp: bool) {
    supportsWebp && !EndsWith(src, ".webp") && !StartsWith(src, "data:")
  }

  /** `getOptimalSrc()`: swap the extension of the path part for `.webp`, keeping the first query segment. */
  function OptimalSrc(src: string, supportsWebp: bool): (r: string)
    ensures !Rewrites(src, supportsWebp) ==> r == src
    ensures Rewrites(src, supportsWebp) && QueryPart(src) == "" ==> r == Stem(PathPart(src)) + ".webp"
    ensures Rewrites(src, supportsWebp) && QueryPart(src) != "" ==>
      r == Stem(PathPart(src)) + ".webp" + "?" + QueryPart(src)
  {
    if Rewrites(src, supportsWebp) then
      var baseSrc := PathPart(src);
      var queryParams := QueryPart(src);
      var webpSrc := Substring(baseSrc, 0, LastIndexOf(baseSrc, '.')) + ".webp";
      if queryParams != "" then webpSrc + "?" + queryParams else webpSrc
    else
      src
  }

  /** `PathPart` is determined by its contract: the '?'-free prefix ending at a '?' or at the end. */
  lemma {:induction false} PathPartOf(x: string, rest: string)
    requires '?' !in x
    requires rest == [] || rest[0] == '?'
    ensures PathPart(x + rest) == x
  {
    var s := x + rest;
    var q := IndexOf(s, '?');
    if rest != [] {
      assert s[|x|] == '?';
      assert forall i :: 0 <= i < |x| ==> s[i] == x[i];
      assert q >= 0;
    } else {
      assert s == x;
    }
  }

  /** `Stem` is determined by its contract: the text before the last '.'. */
  lemma {:induction false} StemOf(x: string, y: string)
    requires '.' !in y
    ensures Stem(x + "." + y) == x
  {
    var s := x + "." + y;
    var d := LastIndexOf(s, '.');
    assert s[|x|] == '.';
    assert forall i :: |x| < i < |s| ==> s[i] == y[i - |x| - 1];
  }

  /** A rewritten source without a query always ends with `.webp`. */
  lemma RewrittenEndsWithWebp(src: string)
    requires Rewrites(src, true) && QueryPart(src) == ""
    ensures EndsWith(OptimalSrc(src, true), ".webp")
  {
  }

  /** With no '.' before the query the whole path collapses to `.webp`. */
  lemma NoDotCollapses(src: string)
    requires Rewrites(src, true) && '.' !in PathPart(src)
    ensures OptimalSrc(src, true) == ".webp" + (if QueryPart(src) == "" then "" else "?" + QueryPart(src))
  {
  }

  /** The path part and first query segment of `base + "?" + q + rest`. */
  lemma {:induction false} PartsOf(base: string, q: string, rest: string)
    requires '?' !in base && '?' !in q
    requires rest == [] || rest[0] == '?'
    ensures PathPart(base + ("?" + q + rest)) == base
    ensures QueryPart(base + ("?" + q + rest)) == q
  {
    var src := base + ("?" + q + rest);
    PathPartOf(base, "?" + q + rest);
    assert src[|base|] == '?';
    assert src[|base| + 1..] == q + rest;
    PathPartOf(q, rest);
  }

  /**
   The rewrite of a source whose path part is `x + "." + y` (no '.' in `y`)
   and whose first query segment is `q`: whatever follows a second '?' is dropped.
   */
  lemma {:induction false} RewriteOf(x: string, y: string, q: string, rest: string)
    requires '.' !in y && '?' !in x && '?' !in y && '?' !in q
    requires rest == [] || rest[0] == '?'
    requires Rewrites((x + "." + y) + ("?" + q + rest), true)
    ensures q == "" ==> OptimalSrc((x + "." + y) + ("?" + q + rest), true) == x + ".webp"
    ensures q != "" ==> OptimalSrc((x + "." + y) + ("?" + q + rest), true) == x + ".webp" + "?" + q
  {
    var base := x + "." + y;
    assert '?' !in base;
    PartsOf(base, q, rest);
    StemOf(x, y);
  }

  /** The stem of a rewritten source is a '?'-free prefix of the source. */
  lemma StemIsPrefix(src: string)
    ensures var stem := Stem(PathPart(src)); '?' !in stem && StartsWith(src, stem)
  {
    var base := PathPart(src);
    var stem := Stem(base);
    assert base == src[..|base|];
    assert stem == base[..|stem|];
    assert forall i :: 0 <= i < |stem| ==> stem[i] == base[i];
  }

  /** A '.' right after a prefix of a source not starting with "data:" keeps it that way. */
  lemma {:induction false} NotDataAfterStem(src: string, stem: string, tail: string)
    requires !StartsWith(src, "data:")
    requires StartsWith(src, stem)
    ensures !StartsWith(stem + "." + tail, "data:")
  {
    var r := stem + "." + tail;
    if |stem| >= 5 {
      assert r[..5] == stem[..5];
      assert src[..5] == stem[..5];
    } else if |r| >= 5 {
      assert r[|stem|] == '.';
      assert "data:"[|stem|] != '.';
      assert r[..5][|stem|] != "data:"[|stem|];
    }
  }

  /** Regroupings of a rewritten source with a query. */
  lemma WebpForm(stem: string, q: string)
    ensures stem + ".webp" + "?" + q == (stem + "." + "webp") + ("?" + q + "")
    ensures stem + ".webp" + "?" + q == stem + "." + ("webp?" + q)
  {
    assert ".webp" == "." + "webp";
    assert "webp?" + q == "webp" + "?" + q;
  }

  /** A rewritten source with a query is rewritten to itself. */
  lemma {:induction false} QueryRewriteIsFixpoint(src: string)
    requires Rewrites(src, true) && QueryPart(src) != ""
    ensures OptimalSrc(OptimalSrc(src, true), true) == OptimalSrc(src, true)
  {
    var q := QueryPart(src);
    var stem := Stem(PathPart(src));
    var r := OptimalSrc(src, true);
    assert r == stem + ".webp" + "?" + q;
    StemIsPrefix(src);
    WebpForm(stem, q);
    NotDataAfterStem(src, stem, "webp?" + q);
    if !EndsWith(r, ".webp") {
      RewriteOf(stem, "webp", q, "");
    }
  }

  /** Rewriting an already rewritten source changes nothing. */
  lemma {:induction false} OptimalSrcIdempotent(src: string, supportsWebp: bool)
    ensures OptimalSrc(OptimalSrc(src, supportsWebp), supportsWebp) == OptimalSrc(src, supportsWebp)
  {
    if Rewrites(src, supportsWebp) {
      if QueryPart(src) != "" {
        QueryRewriteIsFixpoint(src);
      } else {
        assert EndsWith(OptimalSrc(src, supportsWebp), ".webp");
      }
    }
  }

  // ---------------------------------------------------------------------------
  // Loading attributes
  // ---------------------------------------------------------------------------

  /** The `loading` attribute of the main image: lazy unless `priority`. */
  function LoadingAttr(priority: bool): (r: string)
    ensures r == "lazy" <==> !priority
    ensures r == "eager" <==> priority
  {
    if !priority then "lazy" else "eager"
  }

  /** The `fetchPriority` attribute of the main image: high only for `priority`. */
  function FetchPriorityAttr(priority: bool): (r: string)
    ensures r == "high" <==> priority
    ensures r == "auto" <==> !priority
  {
    if priority then "high" else "auto"
  }

  // ---------------------------------------------------------------------------
  // Loaded/error state
  // ---------------------------------------------------------------------------

  /** The props the reset effect depends on. */
  datatype ImageProps = ImageProps(src: string, placeholderSrc: string, priority: bool)

  datatype ImageState = ImageState(loaded: bool, error: bool, currentSrc: string)

  /** Mounted component: its props and its state. */
  datatype Component = Component(props: ImageProps, state: ImageState)

  datatype ImageEvent =
    | Loaded                     // the main image fired `onLoad`
    | Failed                     // the main image fired `onError`
    | Rerender(next: ImageProps) // the parent rendered the component with `next`

  /** The reset effect's state, which is also the state at mount. */
  function ResetState(props: ImageProps): (st: ImageState)
    ensures !st.loaded && !st.error
    ensures st.currentSrc == props.placeholderSrc
  {
    ImageState(false, false, props.placeholderSrc)
  }

  /** The image the effect preloads: the source, for priority images only. */
  function Preload(props: ImageProps): (r: Option<string>)
    ensures r.Some? <==> props.priority
    ensures r.Some? ==> r.value == props.src
  {
    if props.priority then Some(props.src) else None
  }

  /**
   The props after the default arguments are applied: a missing
   `placeholderSrc` is `/placeholder.svg` and a missing `priority` is false.
   */
  function WithDefaults(src: string, placeholderSrc: Option<string>, priority: Option<bool>): (p: ImageProps)
    ensures p.src == src
    ensures placeholderSrc.None? ==> p.placeholderSrc == DefaultPlaceholder
    ensures placeholderSrc.Some? ==> p.placeholderSrc == placeholderSrc.value
    ensures p.priority <==> priority == Some(true)
  {
    ImageProps(src,
      if placeholderSrc.Some? then placeholderSrc.value else DefaultPlaceholder,
      if priority.Some? then priority.value else false)
  }

  function Mount(props: ImageProps): Component {
    Component(props, ResetState(props))
  }

  /** `handleLoad` */
  function HandleLoad(st: ImageState): (r: ImageState)
    ensures r.loaded
    ensures r.error == st.error && r.currentSrc == st.currentSrc
  {
    st.(loaded := true)
  }

  /** `handleError` */
  function HandleError(st: ImageState): (r: ImageState)
    ensures r.error
    ensures r.loaded == st.loaded && r.currentSrc == st.currentSrc
  {
    st.(error := true)
  }

  /** One event. The effect reruns, and resets the state, exactly when `src`, `placeholderSrc` or `priority` changed. */
  function Step(c: Component, e: ImageEvent): (r: Component)
    ensures e.Rerender? ==> r.props == e.next
    ensures !e.Rerender? ==> r.props == c.props
    ensures e.Rerender? && e.next != c.props ==> r.state == ResetState(e.next)
    ensures e.Rerender? && e.next == c.props ==> r.state == c.state
    ensures e == Loaded ==> r.state == HandleLoad(c.state)
    ensures e == Failed ==> r.state == HandleError(c.state)
  {
    match e
    case Loaded => c.(state := HandleLoad(c.state))
    case Failed => c.(state := HandleError(c.state))
    case Rerender(next) =>
      if next != c.props then Component(next, ResetState(next)) else Component(next, c.state)
  }

  function Run(c: Component, events: seq<ImageEvent>): Component
    decreases |events|
  {
    if |events| == 0 then c else Run(Step(c, events[0]), events[1..])
  }

  /** `currentSrc` only ever takes the value of the current placeholder. */
  lemma {:induction false} CurrentSrcIsPlaceholder(c: Component, events: seq<ImageEvent>)
    requires c.state.currentSrc == c.props.placeholderSrc
    ensures Run(c, events).state.currentSrc == Run(c, events).props.placeholderSrc
    decreases |events|
  {
    if |events| > 0 {
      CurrentSrcIsPlaceholder(Step(c, events[0]), events[1..]);
    }
  }

  /** No event re-renders the component with props other than `p`. */
  ghost predicate PropsStay(events: seq<ImageEvent>, p: ImageProps) {
    forall i :: 0 <= i < |events| && events[i].Rerender? ==> events[i].next == p
  }

  /**
   While the props stay the same, `loaded` holds exactly when it held before
   or an `onLoad` occurred, and `error` likewise with `onError`.
   */
  lemma {:induction false} FlagsRecordEvents(c: Component, events: seq<ImageEvent>)
    requires PropsStay(events, c.props)
    ensures Run(c, events).props == c.props
    ensures Run(c, events).state.loaded <==> c.state.loaded || Loaded in events
    ensures Run(c, events).state.error <==> c.state.error || Failed in events
    ensures Run(c, events).state.currentSrc == c.state.currentSrc
    decreases |events|
  {
    if |events| > 0 {
      var c' := Step(c, events[0]);
      assert PropsStay(events[1..], c.props);
      FlagsRecordEvents(c', events[1..]);
      assert events == [events[0]] + events[1..];
    }
  }

  /** The placeholder image is shown exactly while the main image has not loaded. */
  function ShowsPlaceholder(st: ImageState): bool {
    !st.loaded
  }

  /** The "Failed to load image" overlay is shown exactly when an error occurred. */
  function ShowsErrorOverlay(st: ImageState): bool {
    st.error
  }

  /** After mount, the placeholder stays until a load event and the overlay until an error event. */
  lemma {:induction false} PlaceholderUntilLoad(props: ImageProps, events: seq<ImageEvent>)
    requires PropsStay(events, props)
    ensures ShowsPlaceholder(Run(Mount(props), events).state) <==> Loaded !in events
    ensures ShowsErrorOverlay(Run(Mount(props), events).state) <==> Failed in events
  {
    FlagsRecordEvents(Mount(props), events);
  }
}

=== FILE: service_worker.dfy ===
/**
 The offline cache controller of public/service-worker.js as pure decision
 functions over an abstract CacheStorage: an ordered list of cache names
 (the order `caches.keys()` reports and `caches.match` searches) and, per
 name, a map from request URL to stored response.

 Network results are parameters: `None` stands for a rejected `fetch`, and
 `Some(resp)` for a fetch that resolved with a response of any status.
 */
module ServiceWorker {
  import opened Wrappers
  import opened Strings

  /** The general (versioned) asset cache. */
  const CacheName: string := "cvv-iedc-v1"
  /** The image cache. */
  const ImageCacheName: string := "cvv-iedc-images-v1"
  /** Assets stored in the general cache at install time, as root-relative paths. */
  const PrecacheAssets: seq<string> := ["/", "/index.html", "/favicon.ico", "/placeholder.svg"]
  /** Path suffixes that mark a request as an image request (case-sensitive). */
  const ImageExtensions: seq<string> := [".png", ".jpg", ".jpeg", ".webp", ".svg", ".gif"]
  /** The document served to failed cross-origin navigations. */
  const OfflinePage: string := "/offline.html"

  /** A parsed request URL: `url.origin`, `url.pathname`, `url.search`. */
  datatype Url = Url(origin: string, pathname: string, search: string)

  /** The request fields the worker reads. */
  datatype Request = Request(url: Url, verb: string, destination: string, mode: string)

  datatype Response = Response(status: int, body: string)

  /** One named cache: request URL to stored response. */
  type Cache = map<Url, Response>

  /** All caches of the origin, with their names in creation order. */
  datatype CacheStorage = CacheStorage(names: seq<string>, caches: map<string, Cache>)

  /** No name is listed twice, and the listed names are exactly the caches present. */
  ghost predicate Valid(s: CacheStorage) {
    && (forall i, j :: 0 <= i < j < |s.names| ==> s.names[i] != s.names[j])
    && (forall n :: n in s.caches <==> n in s.names)
  }

  /** The cache named `name` as `caches.open` would see it: empty when absent. */
  function CacheOrEmpty(s: CacheStorage, name: string): Cache {
    if name in s.caches then s.caches[name] else map[]
  }

  // ---------------------------------------------------------------------------
  // Request classification
  // ---------------------------------------------------------------------------

  /** `exts.some(ext => path.endsWith(ext))` */
  function SomeEndsWith(path: string, exts: seq<string>): (r: bool)
    ensures r <==> exists k :: 0 <= k < |exts| && EndsWith(path, exts[k])
  {
    if |exts| == 0 then false
    else EndsWith(path, exts[0]) || SomeEndsWith(path, exts[1..])
  }

  /** The six extensions, spelled out. */
  lemma {:induction false} ImageExtensionsListed(path: string)
    ensures SomeEndsWith(path, ImageExtensions) <==>
      || EndsWith(path, ".png")
      || EndsWith(path, ".jpg")
      || EndsWith(path, ".jpeg")
      || EndsWith(path, ".webp")
      || EndsWith(path, ".svg")
      || EndsWith(path, ".gif")
  {
    var e := ImageExtensions;
    assert e[1..] == [".jpg", ".jpeg", ".webp", ".svg", ".gif"];
    assert e[2..] == [".jpeg", ".webp", ".svg", ".gif"];
    assert e[3..] == [".webp", ".svg", ".gif"];
    assert e[4..] == [".svg", ".gif"];
    assert e[5..] == [".gif"];
    assert SomeEndsWith(path, e) == (EndsWith(path, ".png") || SomeEndsWith(path, e[1..]));
    assert SomeEndsWith(path, e[1..]) == (EndsWith(path, ".jpg") || SomeEndsWith(path, e[2..]));
    assert SomeEndsWith(path, e[2..]) == (EndsWith(path, ".jpeg") || SomeEndsWith(path, e[3..]));
    assert SomeEndsWith(path, e[3..]) == (EndsWith(path, ".webp") || SomeEndsWith(path, e[4..]));
    assert SomeEndsWith(path, e[4..]) == (EndsWith(path, ".svg") || SomeEndsWith(path, e[5..]));
    assert SomeEndsWith(path, e[5..]) == EndsWith(path, ".gif");
  }

  /** `isImageRequest`: an image extension on the path, or an image destination. */
  function IsImageRequest(req: Request): (r: bool)
    ensures r <==>
      || EndsWith(req.url.pathname, ".png")
      || EndsWith(req.url.pathname, ".jpg")
      || EndsWith(req.url.pathname, ".jpeg")
      || EndsWith(req.url.pathname, ".webp")
      || EndsWith(req.url.pathname, ".svg")
      || EndsWith(req.url.pathname, ".gif")
      || req.destination == "image"
  {
    ImageExtensionsListed(req.url.pathname);
    SomeEndsWith(req.url.pathname, ImageExtensions) || req.destination == "image"
  }

  /** `isNetworkFirstRequest`: an API path or a JSON document. */
  function IsNetworkFirstRequest(req: Request): (r: bool)
    ensures r <==> (exists i :: OccursAt(req.url.pathname, "/api/", i)) || EndsWith(req.url.pathname, ".json")
  {
    ContainsIff(req.url.pathname, "/api/");
    Contains(req.url.pathname, "/api/") || EndsWith(req.url.pathname, ".json")
  }

  /** The cache a cross-origin response is written to. */
  function PartitionFor(req: Request): (name: string)
    ensures name == ImageCacheName <==> IsImageRequest(req)
    ensures name == CacheName <==> !IsImageRequest(req)
  {
    if IsImageRequest(req) then ImageCacheName else CacheName
  }

  // ---------------------------------------------------------------------------
  // Cache storage operations
  // ---------------------------------------------------------------------------

  predicate HasKey(caches: map<string, Cache>, name: string, key: Url) {
    name in caches && key in caches[name]
  }

  /** `names[i]` is the first listed cache holding `key`. */
  ghost predicate FirstHolder(names: seq<string>, caches: map<string, Cache>, key: Url, i: int) {
    && 0 <= i < |names|
    && HasKey(caches, names[i], key)
    && forall j :: 0 <= j < i ==> !HasKey(caches, names[j], key)
  }

  /** Searches the listed caches in order and answers from the first that holds `key`. */
  function MatchIn(names: seq<string>, caches: map<string, Cache>, key: Url): (r: Option<Response>)
    ensures r.None? <==> forall i :: 0 <= i < |names| ==> !HasKey(caches, names[i], key)
    ensures r.Some? ==> exists i :: FirstHolder(names, caches, key, i) && r.value == caches[names[i]][key]
  {
    if |names| == 0 then None
    else if HasKey(caches, names[0], key) then
      assert FirstHolder(names, caches, key, 0);
      Some(caches[names[0]][key])
    else
      var r := MatchIn(names[1..], caches, key);
      assert forall i :: FirstHolder(names[1..], caches, key, i) ==> FirstHolder(names, caches, key, i + 1);
      r
  }

  /** `caches.match(key)` */
  function Match(s: CacheStorage, key: Url): Option<Response> {
    MatchIn(s.names, s.caches, key)
  }

  /** `caches.open(name)`: creates an empty cache, listed last, when none exists. */
  function Open(s: CacheStorage, name: string): (r: CacheStorage)
    requires Valid(s)
    ensures Valid(r)
    ensures r.caches.Keys == s.caches.Keys + {name}
    ensures r.caches[name] == CacheOrEmpty(s, name)
    ensures forall n :: n in s.caches ==> r.caches[n] == s.caches[n]
    ensures name in s.caches ==> r.names == s.names
    ensures name !in s.caches ==> r.names == s.names + [name]
  {
    if name in s.caches then s
    else CacheStorage(s.names + [name], s.caches[name := map[]])
  }

  /** `caches.open(name).then(cache => cache.put(key, resp))` */
  function Put(s: CacheStorage, name: string, key: Url, resp: Response): (r: CacheStorage)
    requires Valid(s)
    ensures Valid(r)
    ensures r.caches.Keys == s.caches.Keys + {name}
    ensures r.caches[name] == CacheOrEmpty(s, name)[key := resp]
    ensures forall n :: n in s.caches && n != name ==> r.caches[n] == s.caches[n]
    ensures name in s.caches ==> r.names == s.names
    ensures name !in s.caches ==> r.names == s.names + [name]
  {
    var o := Open(s, name);
    o.(caches := o.caches[name := o.caches[name][key := resp]])
  }

  /** A put of one URL leaves what `caches.match` answers for every other URL unchanged. */
  lemma {:induction false} PutKeepsOtherMatches(s: CacheStorage, name: string, key: Url, resp: Response, other: Url)
    requires Valid(s)
    requires other != key
    ensures Match(Put(s, name, key, resp), other) == Match(s, other)
  {
    var r := Put(s, name, key, resp);
    MatchInSameHolders(s.names, s.caches, r.caches, other);
    if name !in s.caches {
      MatchInAppendNonHolder(s.names, name, r.caches, other);
    }
  }

  /** Two cache maps that agree on `key` for every listed name give the same match. */
  lemma {:induction false} MatchInSameHolders(names: seq<string>, c1: map<string, Cache>, c2: map<string, Cache>, key: Url)
    requires forall n :: n in names ==>
      && (HasKey(c1, n, key) <==> HasKey(c2, n, key))
      && (HasKey(c1, n, key) ==> c1[n][key] == c2[n][key])
    ensures MatchIn(names, c2, key) == MatchIn(names, c1, key)
    decreases |names|
  {
    if |names| > 0 {
      assert names[0] in names;
      MatchInSameHolders(names[1..], c1, c2, key);
    }
  }

  /** A cache listed last that does not hold `key` does not change the match. */
  lemma {:induction false} MatchInAppendNonHolder(names: seq<string>, extra: string, caches: map<string, Cache>, key: Url)
    requires !HasKey(caches, extra, key)
    ensures MatchIn(names + [extra], caches, key) == MatchIn(names, caches, key)
    decreases |names|
  {
    if |names| > 0 {
      assert (names + [extra])[1..] == names[1..] + [extra];
      MatchInAppendNonHolder(names[1..], extra, caches, key);
    } else {
      assert (names + [extra])[1..] == [];
    }
  }

  // ---------------------------------------------------------------------------
  // Lifecycle: install and activate
  // ---------------------------------------------------------------------------

  /**
   A fetch result `cache.addAll` accepts: a response that is `ok` (status
   200-299) and not 206 Partial Content, which the Cache API rejects too.
   */
  predicate AddAllAccepts(r: Option<Response>) {
    r.Some? && 200 <= r.value.status <= 299 && r.value.status != 206
  }

  /** The URL a root-relative path resolves to from the worker's own origin. */
  function Resolve(selfOrigin: string, path: string): Url {
    Url(selfOrigin, path, "")
  }

  function PrecacheUrls(selfOrigin: string): set<Url> {
    set p | p in PrecacheAssets :: Resolve(selfOrigin, p)
  }

  datatype Installed = Installed(ok: bool, storage: CacheStorage)

  /** Every precache fetch gave a response `addAll` accepts, which is when it resolves. */
  predicate AllPrecacheOk(selfOrigin: string, fetchAsset: Url -> Option<Response>) {
    forall p | p in PrecacheAssets :: AddAllAccepts(fetchAsset(Resolve(selfOrigin, p)))
  }

  /** The general cache after `cache.addAll` stored every precache response. */
  function AddPrecache(general: Cache, selfOrigin: string, fetchAsset: Url -> Option<Response>): (c: Cache)
    requires AllPrecacheOk(selfOrigin, fetchAsset)
    ensures c.Keys == general.Keys + PrecacheUrls(selfOrigin)
    ensures forall p :: p in PrecacheAssets ==>
      Resolve(selfOrigin, p) in c && Some(c[Resolve(selfOrigin, p)]) == fetchAsset(Resolve(selfOrigin, p))
    ensures forall u :: u in general && u !in PrecacheUrls(selfOrigin) ==> c[u] == general[u]
  {
    var added := map u | u in PrecacheUrls(selfOrigin) && fetchAsset(u).Some? :: fetchAsset(u).value;
    assert added.Keys == PrecacheUrls(selfOrigin);
    general + added
  }

  /** `[name]` when `caches.open(name)` would create the cache, else nothing. */
  function NewName(s: CacheStorage, name: string): seq<string> {
    if name in s.caches then [] else [name]
  }

  /** `caches.open` of the general cache, then of the image cache. */
  function Prepare(s: CacheStorage): (r: CacheStorage)
    requires Valid(s)
    ensures Valid(r)
    ensures r.caches.Keys == s.caches.Keys + {CacheName, ImageCacheName}
    ensures r.caches[CacheName] == CacheOrEmpty(s, CacheName)
    ensures r.caches[ImageCacheName] == CacheOrEmpty(s, ImageCacheName)
    ensures forall n :: n in s.caches ==> r.caches[n] == s.caches[n]
    ensures r.names == s.names + NewName(s, CacheName) + NewName(s, ImageCacheName)
  {
    var general := Open(s, CacheName);
    assert CacheName != ImageCacheName;
    Open(general, ImageCacheName)
  }

  /**
   The install handler. Both caches are opened; `cache.addAll` is atomic,
   so the precache entries are stored all together, and only when every
   asset fetch gave a response it accepts. `ok` is whether `waitUntil` settles
   successfully (and `skipWaiting` is reached).
   */
  function Install(s: CacheStorage, selfOrigin: string, fetchAsset: Url -> Option<Response>): (r: Installed)
    requires Valid(s)
    ensures Valid(r.storage)
    ensures r.storage.caches.Keys == s.caches.Keys + {CacheName, ImageCacheName}
    ensures r.ok <==> forall p :: p in PrecacheAssets ==> AddAllAccepts(fetchAsset(Resolve(selfOrigin, p)))
    ensures r.ok ==> r.storage.caches[CacheName] == AddPrecache(CacheOrEmpty(s, CacheName), selfOrigin, fetchAsset)
    ensures !r.ok ==> r.storage.caches[CacheName] == CacheOrEmpty(s, CacheName)
    ensures r.storage.caches[ImageCacheName] == CacheOrEmpty(s, ImageCacheName)
    ensures forall n :: n in s.caches && n != CacheName ==> r.storage.caches[n] == s.caches[n]
    ensures r.storage.names == s.names + NewName(s, CacheName) + NewName(s, ImageCacheName)
  {
    var prepared := Prepare(s);
    if AllPrecacheOk(selfOrigin, fetchAsset) then
      var general := AddPrecache(prepared.caches[CacheName], selfOrigin, fetchAsset);
      Installed(true, prepared.(caches := prepared.caches[CacheName := general]))
    else
      Installed(false, prepared)
  }

  /** A name the current worker version keeps. */
  predicate IsCurrent(name: string) {
    name == CacheName || name == ImageCacheName
  }

  ghost predicate Distinct(names: seq<string>) {
    forall i, j :: 0 <= i < j < |names| ==> names[i] != names[j]
  }

  /** `x` is listed at some position before a listing of `y`. */
  ghost predicate Precedes(names: seq<string>, x: string, y: string) {
    exists a, b :: 0 <= a < b < |names| && names[a] == x && names[b] == y
  }

  /** Any two entries of `sub` are listed in `names` in the same order. */
  ghost predicate OrderKept(sub: seq<string>, names: seq<string>) {
    forall i, j :: 0 <= i < j < |sub| ==> Precedes(names, sub[i], sub[j])
  }

  /** The listed names that survive the sweep, in their original order. */
  function KeepCurrent(names: seq<string>): (r: seq<string>)
    ensures forall n :: n in r <==> n in names && IsCurrent(n)
    ensures Distinct(names) ==> Distinct(r)
    ensures OrderKept(r, names)
  {
    if |names| == 0 then []
    else
      var rest := KeepCurrent(names[1..]);
      if IsCurrent(names[0]) then
        assert Distinct(names) ==> names[0] !in names[1..];
        OrderKeptCons(names[0], rest, names[1..]);
        [names[0]] + rest
      else
        OrderKeptSkip(names[0], rest, names[1..]);
        rest
  }

  lemma OrderKeptCons(x: string, sub: seq<string>, tail: seq<string>)
    requires OrderKept(sub, tail)
    requires forall n :: n in sub ==> n in tail
    ensures OrderKept([x] + sub, [x] + tail)
  {
    var r, names := [x] + sub, [x] + tail;
    forall i, j | 0 <= i < j < |r|
      ensures Precedes(names, r[i], r[j])
    {
      if i == 0 {
        assert sub[j - 1] in tail;
        var b :| 0 <= b < |tail| && tail[b] == sub[j - 1];
        assert names[0] == r[i] && names[b + 1] == r[j];
      } else {
        assert Precedes(tail, sub[i - 1], sub[j - 1]);
        var a, b :| 0 <= a < b < |tail| && tail[a] == sub[i - 1] && tail[b] == sub[j - 1];
        assert names[a + 1] == r[i] && names[b + 1] == r[j];
      }
    }
  }

  lemma OrderKeptSkip(x: string, sub: seq<string>, tail: seq<string>)
    requires OrderKept(sub, tail)
    ensures OrderKept(sub, [x] + tail)
  {
    var names := [x] + tail;
    forall i, j | 0 <= i < j < |sub|
      ensures Precedes(names, sub[i], sub[j])
    {
      var a, b :| 0 <= a < b < |tail| && tail[a] == sub[i] && tail[b] == sub[j];
      assert names[a + 1] == sub[i] && names[b + 1] == sub[j];
    }
  }

  /** The activate handler: every cache whose name is not current is deleted. */
  function Activate(s: CacheStorage): (r: CacheStorage)
    requires Valid(s)
    ensures Valid(r)
    ensures r.names == KeepCurrent(s.names)
    ensures forall n :: n in r.caches <==> n in s.caches && IsCurrent(n)
    ensures forall n :: n in r.caches ==> r.caches[n] == s.caches[n]
  {
    CacheStorage(KeepCurrent(s.names), map n | n in s.caches && IsCurrent(n) :: s.caches[n])
  }

  // ---------------------------------------------------------------------------
  // Fetch routing
  // ---------------------------------------------------------------------------

  /** What the worker's answer to one request is, and the storage after it settles. */
  datatype Served = Served(reply: Option<Response>, storage: CacheStorage)

  function OfflineUrl(selfOrigin: string): Url {
    Resolve(selfOrigin, OfflinePage)
  }

  /**
   Cross-origin stale-while-revalidate: the cached copy if any (from any
   cache, in storage order), else the network result; a network failure
   falls back to the cached offline page only for navigations. A status-200
   network response is written to the partition its classification picks.
   */
  function StaleWhileRevalidate(s: CacheStorage, req: Request, selfOrigin: string, network: Option<Response>): (r: Served)
    requires Valid(s)
    ensures Valid(r.storage)
    ensures Match(s, req.url).Some? ==> r.reply == Match(s, req.url)
    ensures Match(s, req.url).None? && network.Some? ==> r.reply == network
    ensures Match(s, req.url).None? && network.None? && req.mode == "navigate" ==>
      r.reply == Match(s, OfflineUrl(selfOrigin))
    ensures Match(s, req.url).None? && network.None? && req.mode != "navigate" ==> r.reply == None
    ensures network.Some? && network.value.status == 200 ==>
      r.storage == Put(s, PartitionFor(req), req.url, network.value)
    ensures !(network.Some? && network.value.status == 200) ==> r.storage == s
  {
    var cached := Match(s, req.url);
    var storage :=
      if network.Some? && network.value.status == 200
      then Put(s, PartitionFor(req), req.url, network.value)
      else s;
    var fromNetwork :=
      if network.Some? then network
      else if req.mode == "navigate" then Match(s, OfflineUrl(selfOrigin))
      else None;
    Served(if cached.Some? then cached else fromNetwork, storage)
  }

  /** The result of a cache lookup, and the storage after the cache was opened. */
  datatype Lookup = Lookup(cached: Option<Response>, storage: CacheStorage)

  /** The start of the same-origin image branch: a lookup confined to the image cache. */
  function ImageCacheLookup(s: CacheStorage, req: Request): (r: Lookup)
    requires Valid(s)
    ensures Valid(r.storage)
    ensures r.cached.Some? <==> HasKey(s.caches, ImageCacheName, req.url)
    ensures r.cached.Some? ==> r.cached.value == s.caches[ImageCacheName][req.url]
    ensures forall n :: n in s.caches ==> n in r.storage.caches && r.storage.caches[n] == s.caches[n]
  {
    var prepared := Open(s, ImageCacheName);
    var image := prepared.caches[ImageCacheName];
    Lookup(if req.url in image then Some(image[req.url]) else None, prepared)
  }

  /** How the fetch handler treats a request, up to the end of the modelled source. */
  datatype Handling =
    | NotHandled               // returned without calling `respondWith`
    | CrossOrigin(served: Served)
    | SameOriginImage(lookup: Lookup)
    | SameOriginOther          // decided past the end of the modelled source

  /** The fetch handler. */
  function HandleFetch(s: CacheStorage, req: Request, selfOrigin: string, network: Option<Response>): (r: Handling)
    requires Valid(s)
    ensures r.NotHandled? <==> req.verb != "GET"
    ensures r.CrossOrigin? <==> req.verb == "GET" && req.url.origin != selfOrigin
    ensures r.SameOriginImage? <==> req.verb == "GET" && req.url.origin == selfOrigin && IsImageRequest(req)
    ensures r.CrossOrigin? ==> r.served == StaleWhileRevalidate(s, req, selfOrigin, network)
    ensures r.SameOriginImage? ==> r.lookup == ImageCacheLookup(s, req)
  {
    if req.verb != "GET" then NotHandled
    else if req.url.origin != selfOrigin then CrossOrigin(StaleWhileRevalidate(s, req, selfOrigin, network))
    else if IsImageRequest(req) then SameOriginImage(ImageCacheLookup(s, req))
    else SameOriginOther
  }

  // ---------------------------------------------------------------------------
  // Properties
  // ---------------------------------------------------------------------------

  /** Every character of an occurrence of `t` is a character of `s`. */
  lemma OccurrenceChars(s: string, t: string)
    ensures forall i, k :: OccursAt(s, t, i) && 0 <= k < |t| ==> t[k] in s
  {
    forall i, k | OccursAt(s, t, i) && 0 <= k < |t|
      ensures t[k] in s
    {
      assert s[i + k] == s[i..i + |t|][k];
    }
  }

  /** A string lacking one of the characters of `t` does not contain `t`. */
  lemma MissingCharNotContained(s: string, t: string, c: char)
    requires c in t && c !in s
    ensures !Contains(s, t)
  {
    ContainsIff(s, t);
    OccurrenceChars(s, t);
  }

  /** Classification of typical paths, including the case-sensitivity of extensions. */
  lemma ClassificationExamples(o: string)
    ensures IsImageRequest(Request(Url(o, "/logo.png", ""), "GET", "", "no-cors"))
    ensures IsNetworkFirstRequest(Request(Url(o, "/data/events.json", ""), "GET", "", "cors"))
    ensures IsNetworkFirstRequest(Request(Url(o, "/api/events", ""), "GET", "", "cors"))
    ensures !IsImageRequest(Request(Url(o, "/execom/sona.JPG", ""), "GET", "", "no-cors"))
    ensures IsImageRequest(Request(Url(o, "/execom/sona.JPG", ""), "GET", "image", "no-cors"))
  {
    assert OccursAt("/api/events", "/api/", 0);
  }

  /** An image path is not an API path. */
  lemma LogoIsNotApi(o: string)
    ensures !IsNetworkFirstRequest(Request(Url(o, "/logo.png", ""), "GET", "", "no-cors"))
  {
    MissingCharNotContained("/logo.png", "/api/", 'i');
  }

  /** A plain page path is neither an image nor an API request. */
  lemma AboutIsOther(o: string)
    ensures !IsImageRequest(Request(Url(o, "/about", ""), "GET", "document", "navigate"))
    ensures !IsNetworkFirstRequest(Request(Url(o, "/about", ""), "GET", "document", "navigate"))
  {
    MissingCharNotContained("/about", "/api/", 'i');
  }

  /**
   A non-200 or failed network result never reaches any cache, and a
   status-200 result touches only the request's own entry in the partition
   its classification picks.
   */
  lemma {:induction false} WritesConfinedToPartition(s: CacheStorage, req: Request, selfOrigin: string, network: Option<Response>)
    requires Valid(s)
    ensures var r := StaleWhileRevalidate(s, req, selfOrigin, network);
      && (forall n :: n in s.caches && n != PartitionFor(req) ==> n in r.storage.caches && r.storage.caches[n] == s.caches[n])
      && (forall u :: u in CacheOrEmpty(s, PartitionFor(req)) && u != req.url ==>
            r.storage.caches[PartitionFor(req)][u] == CacheOrEmpty(s, PartitionFor(req))[u])
      && (network.None? || network.value.status != 200 ==> r.storage == s)
      && (network.Some? && network.value.status == 200 ==>
            r.storage.caches[PartitionFor(req)][req.url] == network.value)
  {
    var r := StaleWhileRevalidate(s, req, selfOrigin, network);
    if network.Some? && network.value.status == 200 {
      assert r.storage == Put(s, PartitionFor(req), req.url, network.value);
    }
  }

  /**
   Revalidation takes effect: once a status-200 response is stored, the next
   cross-origin request for the same URL is answered with it, provided no
   cache other than the partition holds a copy of that URL.
   */
  lemma {:induction false} RevalidatedCopyIsServedNext(s: CacheStorage, req: Request, selfOrigin: string,
                                                       renewed: Response, later: Option<Response>)
    requires Valid(s)
    requires renewed.status == 200
    requires forall n :: n in s.caches && n != PartitionFor(req) ==> !HasKey(s.caches, n, req.url)
    ensures var first := StaleWhileRevalidate(s, req, selfOrigin, Some(renewed));
      StaleWhileRevalidate(first.storage, req, selfOrigin, later).reply == Some(renewed)
  {
    var first := StaleWhileRevalidate(s, req, selfOrigin, Some(renewed));
    var t := first.storage;
    var part := PartitionFor(req);
    assert HasKey(t.caches, part, req.url);
    assert part in t.names;
    var m := Match(t, req.url);
    assert m.Some?;
    var i :| FirstHolder(t.names, t.caches, req.url, i) && m.value == t.caches[t.names[i]][req.url];
    assert t.names[i] == part;
  }

  /** A request that is not GET is left alone: no lookup, no write, no answer. */
  lemma NonGetPassesThrough(s: CacheStorage, req: Request, selfOrigin: string, network: Option<Response>)
    requires Valid(s)
    requires req.verb != "GET"
    ensures HandleFetch(s, req, selfOrigin, network) == NotHandled
  {
  }

  /** After activation exactly the two current caches can remain; a stale one is gone. */
  lemma {:induction false} SweepExample(general: Cache, images: Cache, stale: Cache)
    ensures var s := CacheStorage(["old-v0", CacheName, ImageCacheName],
                                  map["old-v0" := stale, CacheName := general, ImageCacheName := images]);
      && Valid(s)
      && Activate(s).names == [CacheName, ImageCacheName]
      && "old-v0" !in Activate(s).caches
      && Activate(s).caches[CacheName] == general
      && Activate(s).caches[ImageCacheName] == images
  {
    var s := CacheStorage(["old-v0", CacheName, ImageCacheName],
                          map["old-v0" := stale, CacheName := general, ImageCacheName := images]);
    assert !IsCurrent("old-v0");
    assert s.names[1..] == [CacheName, ImageCacheName];
    assert s.names[1..][1..] == [ImageCacheName];
    assert KeepCurrent([ImageCacheName]) == [ImageCacheName];
    assert KeepCurrent(s.names[1..]) == [CacheName, ImageCacheName];
  }

  /** Activation is idempotent. */
  lemma ActivateIdempotent(s: CacheStorage)
    requires Valid(s)
    ensures Activate(Activate(s)).caches == Activate(s).caches
  {
  }

  /**
   A match for a URL that no swept cache holds answers the same after
   activation: the survivors keep their relative order, so the first holder
   is still first.
   */
  lemma {:induction false} ActivatePreservesMatch(s: CacheStorage, key: Url)
    requires Valid(s)
    requires forall n :: n in s.caches && !IsCurrent(n) ==> !HasKey(s.caches, n, key)
    ensures Match(Activate(s), key) == Match(s, key)
  {
    KeepCurrentMatch(s.names, s.caches, Activate(s).caches, key);
  }

  lemma {:induction false} KeepCurrentMatch(names: seq<string>, caches: map<string, Cache>, kept: map<string, Cache>, key: Url)
    requires forall n :: n in kept <==> n in caches && IsCurrent(n)
    requires forall n :: n in kept ==> kept[n] == caches[n]
    requires forall n :: n in caches && !IsCurrent(n) ==> !HasKey(caches, n, key)
    ensures MatchIn(KeepCurrent(names), kept, key) == MatchIn(names, caches, key)
    decreases |names|
  {
    if |names| > 0 {
      KeepCurrentMatch(names[1..], caches, kept, key);
    }
  }

  /**
   Install stores the precached assets in the general cache only, so the
   image branch of the fetch handler, which reads only the image cache, does
   not find a precached image such as `/placeholder.svg` there.
   */
  lemma PrecachedAssetMissesImageCache(s: CacheStorage, selfOrigin: string, fetchAsset: Url -> Option<Response>, path: string, mode: string)
    requires Valid(s)
    requires path in PrecacheAssets
    requires !HasKey(s.caches, ImageCacheName, Resolve(selfOrigin, path))
    ensures var installed := Install(s, selfOrigin, fetchAsset);
      && (installed.ok ==> HasKey(installed.storage.caches, CacheName, Resolve(selfOrigin, path)))
      && ImageCacheLookup(installed.storage, Request(Resolve(selfOrigin, path), "GET", "image", mode)).cached.None?
  {
  }

  /** When every precache fetch succeeds, install stores every precached asset in the general cache. */
  lemma {:induction false} PrecacheCompleteness(s: CacheStorage, selfOrigin: string, fetchAsset: Url -> Option<Response>)
    requires Valid(s)
    requires AllPrecacheOk(selfOrigin, fetchAsset)
    ensures Install(s, selfOrigin, fetchAsset).ok
    ensures var t := Install(s, selfOrigin, fetchAsset).storage;
      forall p :: p in PrecacheAssets ==> HasKey(t.caches, CacheName, Resolve(selfOrigin, p))
  {
  }

  /** A 206 Partial Content answer for any one precache asset fails the install and stores nothing. */
  lemma PartialContentFailsInstall(s: CacheStorage, selfOrigin: string, fetchAsset: Url -> Option<Response>, path: string)
    requires Valid(s)
    requires path in PrecacheAssets
    requires fetchAsset(Resolve(selfOrigin, path)).Some? && fetchAsset(Resolve(selfOrigin, path)).value.status == 206
    ensures !Install(s, selfOrigin, fetchAsset).ok
    ensures Install(s, selfOrigin, fetchAsset).storage.caches[CacheName] == CacheOrEmpty(s, CacheName)
  {
  }
}

=== FILE: strings.dfy ===
/**
 The JavaScript string operations the site relies on, over `seq<char>`:
 `startsWith`, `endsWith`, `includes`, `indexOf`, `lastIndexOf`,
 `substring`, `Array.prototype.join` and decimal rendering of integers.
 Matching is exact and case-sensitive, as in JavaScript.
 */
module Strings {

  /** `s.startsWith(p)` */
  predicate StartsWith(s: string, p: string) {
    |p| <= |s| && s[..|p|] == p
  }

  /** `s.endsWith(p)` */
  predicate EndsWith(s: string, p: string) {
    |p| <= |s| && s[|s| - |p|..] == p
  }

  /** `t` occurs in `s` starting at position `i`. */
  ghost predicate OccursAt(s: string, t: string, i: int) {
    0 <= i && i + |t| <= |s| && s[i..i + |t|] == t
  }

  /** `s.includes(t)`, scanning `s` from the left. */
  predicate Contains(s: string, t: string)
    decreases |s|
  {
    StartsWith(s, t) || (|s| > 0 && Contains(s[1..], t))
  }

  /** `Contains` holds exactly when some window of `s` equals `t`. */
  lemma {:induction false} ContainsIff(s: string, t: string)
    ensures Contains(s, t) <==> exists i :: OccursAt(s, t, i)
    decreases |s|
  {
    if StartsWith(s, t) {
      assert OccursAt(s, t, 0);
    } else if |s| > 0 {
      ContainsIff(s[1..], t);
      if exists i :: OccursAt(s[1..], t, i) {
        var i :| OccursAt(s[1..], t, i);
        assert s[1..][i..i + |t|] == s[i + 1..i + 1 + |t|];
        assert OccursAt(s, t, i + 1);
      }
      if exists i :: OccursAt(s, t, i) {
        var i :| OccursAt(s, t, i);
        assert i != 0;
        assert s[1..][i - 1..i - 1 + |t|] == s[i..i + |t|];
        assert OccursAt(s[1..], t, i - 1);
      }
    }
  }

  /** Searching for a one-character string is membership of that character. */
  lemma ContainsChar(s: string, c: char)
    ensures Contains(s, [c]) <==> c in s
  {
    ContainsIff(s, [c]);
    if c in s {
      var i :| 0 <= i < |s| && s[i] == c;
      assert OccursAt(s, [c], i);
    }
    if exists i :: OccursAt(s, [c], i) {
      var i :| OccursAt(s, [c], i);
      assert s[i] == s[i..i + 1][0];
    }
  }

  /** Whatever contains `t` also contains every window of `t`. */
  lemma ContainsWindow(s: string, t: string, k: nat, len: nat)
    requires k + len <= |t|
    requires Contains(s, t)
    ensures Contains(s, t[k..k + len])
  {
    ContainsIff(s, t);
    ContainsIff(s, t[k..k + len]);
    var i :| OccursAt(s, t, i);
    assert s[i..i + |t|] == t;
    forall j | k <= j < k + len
      ensures s[i + j] == t[j]
    {
      assert s[i + j] == s[i..i + |t|][j];
    }
    assert s[i + k..i + k + len] == t[k..k + len];
    assert OccursAt(s, t[k..k + len], i + k);
  }

  /** `s.indexOf(c)`: the first position of `c`, or -1. */
  function IndexOf(s: string, c: char): (r: int)
    ensures -1 <= r < |s|
    ensures r == -1 <==> c !in s
    ensures 0 <= r ==> s[r] == c && c !in s[..r]
  {
    if |s| == 0 then -1
    else if s[0] == c then 0
    else
      var k := IndexOf(s[1..], c);
      if k < 0 then -1 else (assert s[..k + 1] == [s[0]] + s[1..][..k]; k + 1)
  }

  /** `s.lastIndexOf(c)`: the last position of `c`, or -1. */
  function LastIndexOf(s: string, c: char): (r: int)
    ensures -1 <= r < |s|
    ensures r == -1 <==> c !in s
    ensures 0 <= r ==> s[r] == c && c !in s[r + 1..]
  {
    if |s| == 0 then -1
    else if s[|s| - 1] == c then |s| - 1
    else
      var k := LastIndexOf(s[..|s| - 1], c);
      assert s == s[..|s| - 1] + [s[|s| - 1]];
      if k < 0 then -1 else (assert s[k + 1..] == s[..|s| - 1][k + 1..] + [s[|s| - 1]]; k)
  }

  /** Clamps a JavaScript index argument into `[0, len]`. */
  function Clamp(i: int, len: nat): (r: nat)
    ensures r <= len
    ensures 0 <= i <= len ==> r == i
  {
    if i < 0 then 0 else if i > len then len else i
  }

  /** `s.substring(start, end)`: both indices are clamped and swapped if out of order. */
  function Substring(s: string, start: int, end: int): (r: string)
    ensures 0 <= start <= end <= |s| ==> r == s[start..end]
    ensures 0 <= end <= start <= |s| ==> r == s[end..start]
    ensures start <= 0 <= end <= |s| ==> r == s[..end]
    ensures 0 <= start <= |s| <= end ==> r == s[start..]
    ensures end <= 0 && start <= 0 ==> r == ""
    ensures exists i :: OccursAt(s, r, i)
  {
    var a := Clamp(start, |s|);
    var b := Clamp(end, |s|);
    var r := if a <= b then s[a..b] else s[b..a];
    assert OccursAt(s, r, if a <= b then a else b);
    r
  }

  /** `substring` does not depend on the order of its two arguments. */
  lemma SubstringSwap(s: string, start: int, end: int)
    ensures Substring(s, start, end) == Substring(s, end, start)
  {
  }

  /** The decimal digit for `d`. */
  function Digit(d: nat): (c: char)
    requires d < 10
    ensures '0' <= c <= '9'
  {
    "0123456789"[d]
  }

  /** The value of a decimal digit character. */
  function DigitValue(c: char): nat
  {
    if '0' <= c <= '9' then (c as int - '0' as int) as nat else 0
  }

  /** The value of a string of decimal digits, read from the left. */
  function DecimalValue(s: string): nat
  {
    if |s| == 0 then 0 else 10 * DecimalValue(s[..|s| - 1]) + DigitValue(s[|s| - 1])
  }

  /** Template-literal rendering `${n}` of a natural number. */
  function NatToString(n: nat): (r: string)
    ensures |r| > 0
    ensures forall i :: 0 <= i < |r| ==> '0' <= r[i] <= '9'
    ensures r[0] == '0' ==> n == 0
  {
    if n < 10 then [Digit(n)] else NatToString(n / 10) + [Digit(n % 10)]
  }

  /** Rendering and reading back decimals round-trip. */
  lemma {:induction false} NatToStringRoundTrip(n: nat)
    ensures DecimalValue(NatToString(n)) == n
  {
    var s := NatToString(n);
    if n < 10 {
      assert "0123456789"[n] as int - '0' as int == n;
    } else {
      NatToStringRoundTrip(n / 10);
      assert s[..|s| - 1] == NatToString(n / 10);
      assert "0123456789"[n % 10] as int - '0' as int == n % 10;
    }
  }

  /** Template-literal rendering `${i}` of an integer. */
  function IntToString(i: int): (r: string)
    ensures |r| > 0
    ensures (r[0] == '-') <==> i < 0
  {
    if i < 0 then "-" + NatToString(-i) else NatToString(i)
  }

  /** `parts.join(sep)` */
  function Join(parts: seq<string>, sep: string): (r: string)
    ensures |parts| == 1 ==> r == parts[0]
    ensures |parts| == 0 ==> r == ""
  {
    if |parts| == 0 then ""
    else if |parts| == 1 then parts[0]
    else parts[0] + sep + Join(parts[1..], sep)
  }

  /** Joining a concatenation joins the two joins with one separator. */
  lemma {:induction false} JoinAppend(xs: seq<string>, ys: seq<string>, sep: string)
    requires |xs| > 0 && |ys| > 0
    ensures Join(xs + ys, sep) == Join(xs, sep) + sep + Join(ys, sep)
    decreases |xs|
  {
    if |xs| == 1 {
      assert (xs + ys)[1..] == ys;
    } else {
      assert (xs + ys)[1..] == xs[1..] + ys;
      JoinAppend(xs[1..], ys, sep);
    }
  }

  /** A join starts with its first part and ends with its last. */
  lemma {:induction false} JoinEnds(parts: seq<string>, sep: string)
    ensures |parts| > 0 ==> StartsWith(Join(parts, sep), parts[0])
    ensures |parts| > 0 ==> EndsWith(Join(parts, sep), parts[|parts| - 1])
    decreases |parts|
  {
    if |parts| > 1 {
      JoinEnds(parts[1..], sep);
      var tail := Join(parts[1..], sep);
      var r := parts[0] + sep + tail;
      assert r[|r| - |parts[|parts| - 1]|..] == tail[|tail| - |parts[|parts| - 1]|..];
    }
  }
}

=== FILE: team.dfy ===
/**
 The logic of src/pages/Team.tsx: member image URLs and loading hints,
 flattening a team's member lists, the expand/collapse map, and year
 selection.
 */
module Team {
  import opened Wrappers
  import opened Strings
  import ImageOptimization

  /** Resizing parameters appended to external member photos. */
  const ImageQuery: string := "w=300&q=75&auto=format"
  /** The section that starts expanded. */
  const ExecutiveCommittee: string := "Executive Committee"
  /** The year selected when the page mounts. */
  const InitialYear: string := "2025-2026"

  datatype Member = Member(name: string, role: string, image: string, linkedin: Option<string>)

  // ---------------------------------------------------------------------------
  // MemberCard
  // ---------------------------------------------------------------------------

  /** `imageSrc`: an external photo (starting with "http") gets the resizing parameters. */
  function MemberImageSrc(image: string): (r: string)
    ensures !StartsWith(image, "http") ==> r == image
    ensures StartsWith(image, "http") && '?' in image ==> r == image + "&" + ImageQuery
    ensures StartsWith(image, "http") && '?' !in image ==> r == image + "?" + ImageQuery
  {
    ContainsChar(image, '?');
    if StartsWith(image, "http") then image + (if Contains(image, "?") then "&" else "?") + ImageQuery
    else image
  }

  /**
   The parameters always land in the query string: the first '?' of an
   external photo's URL stays where it was, or is the one just added, and
   the URL keeps the original as its prefix and ends with the parameters.
   */
  lemma {:induction false} ExternalParamsInQuery(image: string)
    requires StartsWith(image, "http")
    ensures var r := MemberImageSrc(image);
      && StartsWith(r, image)
      && EndsWith(r, ImageQuery)
      && IndexOf(r, '?') == (if '?' in image then IndexOf(image, '?') else |image|)
  {
    var r := MemberImageSrc(image);
    var sep := if '?' in image then "&" else "?";
    assert r == image + sep + ImageQuery;
    assert r[..|image|] == image;
    assert r[|r| - |ImageQuery|..] == ImageQuery;
    var k := IndexOf(r, '?');
    if '?' in image {
      var j := IndexOf(image, '?');
      assert r[j] == '?';
      assert forall i :: 0 <= i < j ==> r[i] == image[i];
      assert r[..k] == image[..k] by {
        assert k <= j;
      }
    } else {
      assert r[|image|] == '?';
      assert forall i :: 0 <= i < |image| ==> r[i] == image[i];
    }
  }

  /** The `loading` hint of a card: eager for the first six of a list. */
  function CardLoading(index: int): (r: string)
    ensures r == "eager" <==> index < 6
    ensures r == "lazy" <==> index >= 6
  {
    if index < 6 then "eager" else "lazy"
  }

  /** The `fetchPriority` hint of a card: high for the first three of a list. */
  function CardFetchPriority(index: int): (r: string)
    ensures r == "high" <==> index < 3
    ensures r == "auto" <==> index >= 3
  {
    if index < 3 then "high" else "auto"
  }

  // ---------------------------------------------------------------------------
  // TeamSection
  // ---------------------------------------------------------------------------

  /**
   A team's member lists as the page reads them. A list the team's object
   does not define reads as `undefined`, which is `None` here.
   */
  datatype Groups = Groups(
    nodalOfficers: Option<seq<Member>>,
    iph: Option<seq<Member>>,
    crl: Option<seq<Member>>,
    sl: Option<seq<Member>>)

  datatype JsError = TypeError(message: string)

  /** `[...list]`: spreading `undefined` throws. */
  function Spread(list: Option<seq<Member>>): (r: Result<seq<Member>, JsError>)
    ensures r.Ok? <==> list.Some?
    ensures r.Ok? ==> r.value == list.value
  {
    if list.Some? then Ok(list.value) else Err(TypeError("undefined is not iterable"))
  }

  /** `allMembers` as written: the four spreads, the first missing list throwing. */
  function AllMembersAsWritten(g: Groups): (r: Result<seq<Member>, JsError>)
    ensures r.Ok? <==> g.nodalOfficers.Some? && g.iph.Some? && g.crl.Some? && g.sl.Some?
    ensures r.Ok? ==> r.value == g.nodalOfficers.value + g.iph.value + g.crl.value + g.sl.value
  {
    match (Spread(g.nodalOfficers), Spread(g.iph), Spread(g.crl), Spread(g.sl))
    case (Ok(a), Ok(b), Ok(c), Ok(d)) => Ok(a + b + c + d)
    case (Err(e), _, _, _) => Err(e)
    case (_, Err(e), _, _) => Err(e)
    case (_, _, Err(e), _) => Err(e)
    case (_, _, _, Err(e)) => Err(e)
  }

  /** The member lists of the Executive Committee entry: only `nodalOfficers` of the four is defined. */
  function ExecutiveCommitteeGroups(nodalOfficers: seq<Member>): Groups {
    Groups(Some(nodalOfficers), None, None, None)
  }

  /** As written, the Executive Committee section throws while computing `allMembers`. */
  lemma ExecutiveCommitteeThrows(nodalOfficers: seq<Member>)
    ensures AllMembersAsWritten(ExecutiveCommitteeGroups(nodalOfficers)).Err?
  {
  }

  /** A list, with a missing one read as empty. */
  function OrEmpty(list: Option<seq<Member>>): seq<Member> {
    if list.Some? then list.value else []
  }

  /** `allMembers` with missing lists read as empty: never throws. */
  function AllMembers(g: Groups): (r: seq<Member>)
    ensures |r| == |OrEmpty(g.nodalOfficers)| + |OrEmpty(g.iph)| + |OrEmpty(g.crl)| + |OrEmpty(g.sl)|
    ensures AllMembersAsWritten(g).Ok? ==> r == AllMembersAsWritten(g).value
  {
    OrEmpty(g.nodalOfficers) + OrEmpty(g.iph) + OrEmpty(g.crl) + OrEmpty(g.sl)
  }

  /** The heading over the `crl` list. */
  function CrlHeading(title: string): (r: string)
    ensures r == "Corresponding Leads" <==> title == ExecutiveCommittee
    ensures r == "Team Members" <==> title != ExecutiveCommittee
  {
    if title == ExecutiveCommittee then "Corresponding Leads" else "Team Members"
  }

  /** One rendered sub-list: its heading and its cards. */
  datatype Subsection = Subsection(heading: string, members: seq<Member>)

  function Optional(heading: string, members: seq<Member>): (r: seq<Subsection>)
    ensures |members| > 0 ==> r == [Subsection(heading, members)]
    ensures |members| == 0 ==> r == []
  {
    if |members| > 0 then [Subsection(heading, members)] else []
  }

  /** Where a heading sits in a section: nodal officers, program heads, the crl list, sub-leads. */
  function HeadingRank(heading: string): nat {
    if heading == "Nodal Officers" then 0
    else if heading == "Innovation & Program Heads" then 1
    else if heading == "Sub-Leads" then 3
    else 2
  }

  /**
   The sub-lists an expanded section shows: each of the four lists under its
   own heading exactly when it is non-empty, in the order nodal officers,
   program heads, crl list, sub-leads.
   */
  function Subsections(title: string, g: Groups): (r: seq<Subsection>)
    ensures |r| <= 4
    ensures forall i :: 0 <= i < |r| ==> |r[i].members| > 0
    ensures Subsection("Nodal Officers", OrEmpty(g.nodalOfficers)) in r <==> |OrEmpty(g.nodalOfficers)| > 0
    ensures Subsection("Innovation & Program Heads", OrEmpty(g.iph)) in r <==> |OrEmpty(g.iph)| > 0
    ensures Subsection(CrlHeading(title), OrEmpty(g.crl)) in r <==> |OrEmpty(g.crl)| > 0
    ensures Subsection("Sub-Leads", OrEmpty(g.sl)) in r <==> |OrEmpty(g.sl)| > 0
    ensures RanksIncrease(r)
  {
    var a := Optional("Nodal Officers", OrEmpty(g.nodalOfficers));
    var b := Optional("Innovation & Program Heads", OrEmpty(g.iph));
    var c := Optional(CrlHeading(title), OrEmpty(g.crl));
    var d := Optional("Sub-Leads", OrEmpty(g.sl));
    AppendRanked([], "Nodal Officers", OrEmpty(g.nodalOfficers));
    AppendRanked(a, "Innovation & Program Heads", OrEmpty(g.iph));
    AppendRanked(a + b, CrlHeading(title), OrEmpty(g.crl));
    AppendRanked(a + b + c, "Sub-Leads", OrEmpty(g.sl));
    a + b + c + d
  }

  /** `sub` is one of the four lists of `g` under its own heading. */
  ghost predicate IsOwnList(title: string, g: Groups, sub: Subsection) {
    || sub == Subsection("Nodal Officers", OrEmpty(g.nodalOfficers))
    || sub == Subsection("Innovation & Program Heads", OrEmpty(g.iph))
    || sub == Subsection(CrlHeading(title), OrEmpty(g.crl))
    || sub == Subsection("Sub-Leads", OrEmpty(g.sl))
  }

  lemma OptionalOnly(heading: string, members: seq<Member>)
    ensures forall x :: x in Optional(heading, members) ==> x == Subsection(heading, members)
  {
  }

  /** A section shows nothing but its own four lists, each under the heading the page gives it. */
  lemma {:induction false} SubsectionsAreOwnLists(title: string, g: Groups)
    ensures forall i :: 0 <= i < |Subsections(title, g)| ==> IsOwnList(title, g, Subsections(title, g)[i])
  {
    var r := Subsections(title, g);
    OptionalOnly("Nodal Officers", OrEmpty(g.nodalOfficers));
    OptionalOnly("Innovation & Program Heads", OrEmpty(g.iph));
    OptionalOnly(CrlHeading(title), OrEmpty(g.crl));
    OptionalOnly("Sub-Leads", OrEmpty(g.sl));
    forall i | 0 <= i < |r|
      ensures IsOwnList(title, g, r[i])
    {
      assert r[i] in r;
    }
  }

  /** Headings appear in strictly increasing rank. */
  ghost predicate RanksIncrease(subs: seq<Subsection>) {
    forall i, j :: 0 <= i < j < |subs| ==> HeadingRank(subs[i].heading) < HeadingRank(subs[j].heading)
  }

  /** Appending an optional sub-list whose heading outranks every heading so far keeps the order. */
  lemma AppendRanked(prefix: seq<Subsection>, heading: string, members: seq<Member>)
    requires RanksIncrease(prefix)
    requires forall i :: 0 <= i < |prefix| ==> HeadingRank(prefix[i].heading) < HeadingRank(heading)
    ensures RanksIncrease(prefix + Optional(heading, members))
    ensures forall i :: 0 <= i < |prefix + Optional(heading, members)| ==>
      HeadingRank((prefix + Optional(heading, members))[i].heading) <= HeadingRank(heading)
  {
  }

  function Flatten(subs: seq<Subsection>): seq<Member> {
    if |subs| == 0 then [] else subs[0].members + Flatten(subs[1..])
  }

  lemma {:induction false} FlattenAppend(a: seq<Subsection>, b: seq<Subsection>)
    ensures Flatten(a + b) == Flatten(a) + Flatten(b)
    decreases |a|
  {
    if |a| > 0 {
      assert (a + b)[0] == a[0];
      assert (a + b)[1..] == a[1..] + b;
      FlattenAppend(a[1..], b);
      assert Flatten(a + b) == a[0].members + (Flatten(a[1..]) + Flatten(b));
    } else {
      assert a + b == b;
    }
  }

  lemma FlattenOptional(heading: string, members: seq<Member>)
    ensures Flatten(Optional(heading, members)) == members
  {
    if |members| > 0 {
      assert Optional(heading, members)[1..] == [];
    }
  }

  /** The cards of an expanded section are exactly `allMembers`, in order. */
  lemma {:induction false} SubsectionsShowAllMembers(title: string, g: Groups)
    ensures Flatten(Subsections(title, g)) == AllMembers(g)
  {
    var a := Optional("Nodal Officers", OrEmpty(g.nodalOfficers));
    var b := Optional("Innovation & Program Heads", OrEmpty(g.iph));
    var c := Optional(CrlHeading(title), OrEmpty(g.crl));
    var d := Optional("Sub-Leads", OrEmpty(g.sl));
    FlattenAppend(a + b + c, d);
    FlattenAppend(a + b, c);
    FlattenAppend(a, b);
    FlattenOptional("Nodal Officers", OrEmpty(g.nodalOfficers));
    FlattenOptional("Innovation & Program Heads", OrEmpty(g.iph));
    FlattenOptional(CrlHeading(title), OrEmpty(g.crl));
    FlattenOptional("Sub-Leads", OrEmpty(g.sl));
  }

  /** A rendered section: the toggle button and, when expanded, its sub-lists. */
  datatype SectionView = SectionView(title: string, expanded: bool, shown: seq<Subsection>)

  /** `TeamSection`: nothing at all for a team without members. */
  function RenderSection(title: string, g: Groups, expanded: bool): (r: Option<SectionView>)
    ensures r.None? <==> |AllMembers(g)| == 0
    ensures r.Some? ==> r.value.expanded == expanded && r.value.title == title
    ensures r.Some? && !expanded ==> r.value.shown == []
    ensures r.Some? && expanded ==> r.value.shown == Subsections(title, g)
    ensures r.Some? && expanded ==> Flatten(r.value.shown) == AllMembers(g)
  {
    SubsectionsShowAllMembers(title, g);
    if |AllMembers(g)| == 0 then None
    else Some(SectionView(title, expanded, if expanded then Subsections(title, g) else []))
  }

  /** A section is rendered exactly when one of its four lists is non-empty. */
  lemma SectionRenderedIffMembers(title: string, g: Groups, expanded: bool)
    ensures RenderSection(title, g, expanded).Some? <==>
      |OrEmpty(g.nodalOfficers)| > 0 || |OrEmpty(g.iph)| > 0 || |OrEmpty(g.crl)| > 0 || |OrEmpty(g.sl)| > 0
  {
  }

  // ---------------------------------------------------------------------------
  // Expanded sections and year selection
  // ---------------------------------------------------------------------------

  /** `expandedSections`: section title to expanded flag. */
  type Expanded = map<string, bool>

  /** `expandedSections[name] || false`: a missing entry reads as collapsed. */
  function IsExpanded(m: Expanded, name: string): bool {
    name in m && m[name]
  }

  /** `toggleSection(name)`: negate the entry for `name`; every other entry is kept. */
  function ToggleSection(m: Expanded, name: string): (r: Expanded)
    ensures IsExpanded(r, name) == !IsExpanded(m, name)
    ensures r.Keys == m.Keys + {name}
    ensures forall k :: k in m && k != name ==> r[k] == m[k]
  {
    m[name := !IsExpanded(m, name)]
  }

  /** Toggling a section twice restores how every section reads. */
  lemma ToggleTwice(m: Expanded, name: string, k: string)
    ensures IsExpanded(ToggleSection(ToggleSection(m, name), name), k) == IsExpanded(m, k)
  {
  }

  datatype TeamYear = TeamYear(year: string, caption: string, isActive: bool, teams: seq<(string, Groups)>)

  datatype PageState = PageState(selectedYear: string, expanded: Expanded)

  function InitialPage(): PageState {
    PageState(InitialYear, map[ExecutiveCommittee := true])
  }

  /** Clicking a year tab: select it and expand only the Executive Committee. */
  function SelectYear(p: PageState, year: string): (r: PageState)
    ensures r.selectedYear == year
    ensures forall k :: IsExpanded(r.expanded, k) <==> k == ExecutiveCommittee
    ensures r.expanded.Keys == {ExecutiveCommittee}
  {
    PageState(year, map[ExecutiveCommittee := true])
  }

  /** Clicking a section's button. */
  function ToggleOnPage(p: PageState, name: string): (r: PageState)
    ensures r.selectedYear == p.selectedYear
    ensures IsExpanded(r.expanded, name) != IsExpanded(p.expanded, name)
    ensures forall k :: k != name ==> IsExpanded(r.expanded, k) == IsExpanded(p.expanded, k)
  {
    p.(expanded := ToggleSection(p.expanded, name))
  }

  /** Switching years forgets every toggle made before. */
  lemma SelectYearForgetsToggles(p: PageState, names: seq<string>, year: string)
    ensures SelectYear(p, year) == SelectYear(ToggleAll(p, names), year)
    ensures SelectYear(p, year).expanded == InitialPage().expanded
  {
  }

  function ToggleAll(p: PageState, names: seq<string>): PageState
    decreases |names|
  {
    if |names| == 0 then p else ToggleAll(ToggleOnPage(p, names[0]), names[1..])
  }

  /** `teamYears.find(team => team.year === year)`: the first entry for the year. */
  function FindYear(years: seq<TeamYear>, year: string): (r: Option<nat>)
    ensures r.None? <==> forall j :: 0 <= j < |years| ==> years[j].year != year
    ensures r.Some? ==> r.value < |years| && years[r.value].year == year
    ensures r.Some? ==> forall j :: 0 <= j < r.value ==> years[j].year != year
  {
    if |years| == 0 then None
    else if years[0].year == year then Some(0)
    else
      var r := FindYear(years[1..], year);
      if r.None? then None else Some(r.value + 1)
  }

  /** The sections of the selected year, in the order its teams are listed. */
  function RenderPage(years: seq<TeamYear>, p: PageState): (r: seq<Option<SectionView>>)
    ensures FindYear(years, p.selectedYear).None? ==> r == []
    ensures FindYear(years, p.selectedYear).Some? ==>
      var teams := years[FindYear(years, p.selectedYear).value].teams;
      && |r| == |teams|
      && forall i :: 0 <= i < |r| ==>
        && (r[i].None? <==> |AllMembers(teams[i].1)| == 0)
        && (r[i].Some? ==> r[i].value.title == teams[i].0)
        && r[i] == RenderSection(teams[i].0, teams[i].1, IsExpanded(p.expanded, teams[i].0))
        && (r[i].Some? && !r[i].value.expanded ==> r[i].value.shown == [])
        && (r[i].Some? && r[i].value.expanded ==> r[i].value.shown == Subsections(teams[i].0, teams[i].1))
        && (r[i].Some? && r[i].value.expanded ==> Flatten(r[i].value.shown) == AllMembers(teams[i].1))
    ensures forall i :: 0 <= i < |r| && r[i].Some? ==> r[i].value.expanded == IsExpanded(p.expanded, r[i].value.title)
  {
    match FindYear(years, p.selectedYear)
    case None => []
    case Some(k) =>
      var teams := years[k].teams;
      seq(|teams|, i requires 0 <= i < |teams| =>
        RenderSection(teams[i].0, teams[i].1, IsExpanded(p.expanded, teams[i].0)))
  }

  /** The "Coming Soon!" notice: shown for a selected year that is not active. */
  function ShowsComingSoon(years: seq<TeamYear>, p: PageState): (r: bool)
    ensures r <==> exists k :: (&& 0 <= k < |years| && years[k].year == p.selectedYear && !years[k].isActive
                                && forall j :: 0 <= j < k ==> years[j].year != p.selectedYear)
  {
    var f := FindYear(years, p.selectedYear);
    f.Some? && !years[f.value].isActive
  }

  /**
   After a year tab is clicked, the Executive Committee is the only expanded
   section of the page and it shows all its members; every other section
   shows its toggle button only.
   */
  lemma {:induction false} SelectedYearExpandsOnlyExecutiveCommittee(years: seq<TeamYear>, p: PageState, year: string)
    ensures var r := RenderPage(years, SelectYear(p, year));
      forall i :: 0 <= i < |r| && r[i].Some? ==>
        && (r[i].value.expanded <==> r[i].value.title == ExecutiveCommittee)
        && (!r[i].value.expanded ==> r[i].value.shown == [])
  {
  }

  // ---------------------------------------------------------------------------
  // Card loading hints across a section
  // ---------------------------------------------------------------------------

  /** The cards of one sub-list with the `index` each receives, counting from `start`. */
  function IndexedFrom(ms: seq<Member>, start: nat): (r: seq<(Member, nat)>)
    ensures |r| == |ms|
    ensures forall j :: 0 <= j < |r| ==> r[j] == (ms[j], start + j)
    decreases |ms|
  {
    if |ms| == 0 then [] else [(ms[0], start)] + IndexedFrom(ms[1..], start + 1)
  }

  /** The cards of an expanded section: each sub-list's `map` numbers its cards from 0. */
  function Cards(subs: seq<Subsection>): seq<(Member, nat)>
    decreases |subs|
  {
    if |subs| == 0 then [] else IndexedFrom(subs[0].members, 0) + Cards(subs[1..])
  }

  /** How many cards get the value `value` from the hint `hint` of their index. */
  function CountHint(cards: seq<(Member, nat)>, hint: int -> string, value: string): nat
    decreases |cards|
  {
    if |cards| == 0 then 0
    else (if hint(cards[0].1) == value then 1 else 0) + CountHint(cards[1..], hint, value)
  }

  lemma {:induction false} CountHintAppend(a: seq<(Member, nat)>, b: seq<(Member, nat)>, hint: int -> string, value: string)
    ensures CountHint(a + b, hint, value) == CountHint(a, hint, value) + CountHint(b, hint, value)
    decreases |a|
  {
    if |a| == 0 {
      assert a + b == b;
    } else {
      assert (a + b)[1..] == a[1..] + b;
      CountHintAppend(a[1..], b, hint, value);
    }
  }

  /** A hint given exactly to the indices below `t` reaches the first `t - start` cards of a sub-list. */
  lemma {:induction false} CountHintIndexed(ms: seq<Member>, start: nat, hint: int -> string, value: string, t: nat)
    requires forall i: int :: hint(i) == value <==> i < t
    ensures CountHint(IndexedFrom(ms, start), hint, value) ==
      if start >= t then 0 else ImageOptimization.Min(|ms|, t - start)
    decreases |ms|
  {
    if |ms| > 0 {
      var r := IndexedFrom(ms, start);
      assert r[1..] == IndexedFrom(ms[1..], start + 1);
      CountHintIndexed(ms[1..], start + 1, hint, value, t);
    }
  }

  lemma {:induction false} CardsAppend(a: seq<Subsection>, b: seq<Subsection>)
    ensures Cards(a + b) == Cards(a) + Cards(b)
    decreases |a|
  {
    if |a| > 0 {
      assert (a + b)[0] == a[0];
      assert (a + b)[1..] == a[1..] + b;
      CardsAppend(a[1..], b);
    } else {
      assert a + b == b;
    }
  }

  lemma CardsOptional(heading: string, members: seq<Member>)
    ensures Cards(Optional(heading, members)) == IndexedFrom(members, 0)
  {
    if |members| > 0 {
      assert Optional(heading, members)[1..] == [];
    }
  }

  /** Counting over the cards of two runs of sub-lists adds up. */
  lemma CountCardsAppend(a: seq<Subsection>, b: seq<Subsection>, hint: int -> string, value: string)
    ensures CountHint(Cards(a + b), hint, value) == CountHint(Cards(a), hint, value) + CountHint(Cards(b), hint, value)
  {
    CardsAppend(a, b);
    CountHintAppend(Cards(a), Cards(b), hint, value);
  }

  /** An optional sub-list has `min(n, t)` cards whose index is below `t`. */
  lemma CountOptional(heading: string, members: seq<Member>, hint: int -> string, value: string, t: nat)
    requires forall i: int :: hint(i) == value <==> i < t
    ensures CountHint(Cards(Optional(heading, members)), hint, value) == ImageOptimization.Min(|members|, t)
  {
    CardsOptional(heading, members);
    CountHintIndexed(members, 0, hint, value, t);
  }

  /** A hint given exactly to the indices below `t`, counted over an expanded section. */
  lemma {:induction false} SectionHintCount(title: string, g: Groups, hint: int -> string, value: string, t: nat)
    requires forall i: int :: hint(i) == value <==> i < t
    ensures CountHint(Cards(Subsections(title, g)), hint, value) ==
      ImageOptimization.Min(|OrEmpty(g.nodalOfficers)|, t) + ImageOptimization.Min(|OrEmpty(g.iph)|, t)
      + ImageOptimization.Min(|OrEmpty(g.crl)|, t) + ImageOptimization.Min(|OrEmpty(g.sl)|, t)
  {
    var a := Optional("Nodal Officers", OrEmpty(g.nodalOfficers));
    var b := Optional("Innovation & Program Heads", OrEmpty(g.iph));
    var c := Optional(CrlHeading(title), OrEmpty(g.crl));
    var d := Optional("Sub-Leads", OrEmpty(g.sl));
    assert Subsections(title, g) == a + b + c + d;
    CountCardsAppend(a + b + c, d, hint, value);
    CountCardsAppend(a + b, c, hint, value);
    CountCardsAppend(a, b, hint, value);
    CountOptional("Nodal Officers", OrEmpty(g.nodalOfficers), hint, value, t);
    CountOptional("Innovation & Program Heads", OrEmpty(g.iph), hint, value, t);
    CountOptional(CrlHeading(title), OrEmpty(g.crl), hint, value, t);
    CountOptional("Sub-Leads", OrEmpty(g.sl), hint, value, t);
  }

  /**
   Because every sub-list numbers its cards from 0, an expanded section
   requests up to three high-priority images and up to six eager images per
   sub-list, so up to 12 and 24 per section.
   */
  lemma SectionImageHints(title: string, g: Groups)
    ensures CountHint(Cards(Subsections(title, g)), CardFetchPriority, "high") ==
      ImageOptimization.Min(|OrEmpty(g.nodalOfficers)|, 3) + ImageOptimization.Min(|OrEmpty(g.iph)|, 3)
      + ImageOptimization.Min(|OrEmpty(g.crl)|, 3) + ImageOptimization.Min(|OrEmpty(g.sl)|, 3)
    ensures CountHint(Cards(Subsections(title, g)), CardLoading, "eager") ==
      ImageOptimization.Min(|OrEmpty(g.nodalOfficers)|, 6) + ImageOptimization.Min(|OrEmpty(g.iph)|, 6)
      + ImageOptimization.Min(|OrEmpty(g.crl)|, 6) + ImageOptimization.Min(|OrEmpty(g.sl)|, 6)
    ensures CountHint(Cards(Subsections(title, g)), CardFetchPriority, "high") <= 12
  {
    SectionHintCount(title, g, CardFetchPriority, "high", 3);
    SectionHintCount(title, g, CardLoading, "eager", 6);
  }
}

=== FILE: wrappers.dfy ===
/** Failure-carrying datatypes shared by the modules of this model. */
module Wrappers {

  /** A value that may be absent: JavaScript's `undefined` or `null`. */
  datatype Option<+T> = None | Some(value: T)

  /** The outcome of a computation that may throw. */
  datatype Result<+T, +E> = Ok(value: T) | Err(error: E)
}
